=== FILE: README.md ===
# Xyra lottery front-end: display and gating logic in Dafny

Xyra is a no-loss lottery. Players buy tickets with a stake. The stake earns yield while the round runs. The winner takes the yield and everyone else is refunded. Its web front-end is a thin layer over remote contract reads and writes. This project models the part of that layer that is plain logic:

- **Countdown.** The round countdown turns milliseconds into `HH:MM:SS`. It clamps at zero and colours the last ten seconds. The model is a state machine driven by re-renders and interval ticks, with the wall clock passed in as `now`.
- **My Tickets panel.** Each ticket row decides between "Redeem Now" and a disabled button with the time left, as `"{d}d {h}h"` or `"{h}h {m}m {s}s"`. The panel also abbreviates the wallet address and picks the loading and empty lines.
- **Buy Tickets card.** The buy button's disabled predicate and label priority, the "finalizing" warning, the countdown's target and the participant count.
- **Round-result card.** The round title and its " Winner!" suffix, the choice among five result views, and the claim-prize and claim-principal buttons.
- **Shared action button.** Its disabled predicate, caption and classes.
- **All Participants modal.** Its rows and its loading, error and empty lines.
- **Read hooks.** The queries they configure, the participant list built from one `entries(i)` read per entry, and the latch that lets an error toast fire at most once.
- **Admin write hook.** Five action helpers drive one transaction status machine. There is a wallet guard, and a sticky "withdrawal succeeded" flag that only an explicit reset clears.

JavaScript semantics are modelled explicitly in module `Js`:

- truthiness (`undefined`, `""`, `0` and `0n` are falsy);
- `String.prototype.slice` with a negative start;
- `padStart`;
- decimal `toString` of integers.

The source floors float quotients such as `Math.floor((diff / 3600000) % 24)`. For a non-negative integer `diff` these equal integer `div`/`mod`, and the model uses those. The lemmas in `Arith` justify regrouping nested divisions.

Files:

- `js.dfy`: JavaScript helpers.
- `arith.dfy`: division lemmas.
- `time.dfy`: milliseconds left until a deadline given in seconds.
- `countdown.dfy`: the countdown.
- `right_panel.dfy`: the My Tickets panel.
- `buy_tickets.dfy`: the Buy Tickets card.
- `winner_section.dfy`: the round-result card.
- `ui_button.dfy`: the shared action button.
- `participants_modal.dfy`: the All Participants modal.
- `read_lottery.dfy`: the read hooks.
- `lottery_write.dfy`: the admin write hook.

## Model

| member | source | states |
|---|---|---|
| `Time.MsUntil` | frontend/src/app/components/Countdown.tsx:16-20 | the milliseconds left added to `now` give the deadline in milliseconds, and they are at most 0 exactly when the deadline has passed |
| `Countdown.Split` | frontend/src/app/components/Countdown.tsx:38-41 | hours·3600 + minutes·60 + seconds equals the whole seconds `ms div 1000`, with minutes and seconds below 60 |
| `Countdown.SplitUnique` | frontend/src/app/components/Countdown.tsx:38-41 | any hours/minutes/seconds triple with minutes and seconds below 60 that adds up to the same whole seconds is the decomposition itself |
| `Countdown.Two` | frontend/src/app/components/Countdown.tsx:43-45 | `n.toString().padStart(2, "0")` is all digits, reads back as `n`, is at least 2 long and exactly 2 below 100; one leading "0" below 10, and the plain decimal digits, with no leading zero, from 10 on |
| `Countdown.FormatClock` | frontend/src/app/components/Countdown.tsx:43-45 | the three padded fields joined by ":" are at least 8 characters, exactly 8 for hours below 100 |
| `Countdown.FormatTime` | frontend/src/app/components/Countdown.tsx:37-46 | `formatTime` gives at least 8 characters, exactly 8 when fewer than 100 hours are left |
| `Countdown.FormatClockFields` | frontend/src/app/components/Countdown.tsx:43-45 | the text is padded hours, ':', two minute digits, ':', two second digits |
| `Countdown.ClockRoundTrip` | frontend/src/app/components/Countdown.tsx:43-45 | parsing a formatted reading gives back the same hours, minutes and seconds |
| `Countdown.FormatTimeRoundTrip` | frontend/src/app/components/Countdown.tsx:37-46 | the displayed text reads back as the decomposition of the duration, so as exactly its whole seconds |
| `Countdown.FormatZero` | frontend/src/app/components/Countdown.tsx:11-48 | a zero time left displays as "00:00:00" |
| `Countdown.UrgencyOf` | frontend/src/app/components/Countdown.tsx:51-52 | ending exactly when 0 < time left ≤ 10 s, critical exactly when 0 < time left ≤ 5 s, so critical implies ending |
| `Countdown.Display` | frontend/src/app/components/Countdown.tsx:48 | the rendered text of any valid state is at least 8 characters and reads back as the stored time left split into hours, minutes and seconds |
| `Countdown.SpanClasses` | frontend/src/app/components/Countdown.tsx:55-59 | red and bold exactly when ending, white otherwise, pulsing exactly when critical |
| `Countdown.Update` | frontend/src/app/components/Countdown.tsx:18-29 | the stored value is the difference clamped at 0, never negative; `onComplete` fires exactly when the deadline has passed and a callback is present |
| `Countdown.RunEffect` | frontend/src/app/components/Countdown.tsx:13-34 | a falsy target clears the interval and keeps the stored value; a truthy one updates at once and installs the interval; the callback given is recorded, and that first update fires it exactly when the deadline has already passed |
| `Countdown.Mount` | frontend/src/app/components/Countdown.tsx:11-34 | mounting without a target leaves 0 and no interval; with one it stores the clamped difference |
| `Countdown.Step` | frontend/src/app/components/Countdown.tsx:13-34 | a tick without an interval changes nothing; a tick with one stores the clamped difference; it fires the recorded callback once, exactly when the deadline has passed, and never more than once per tick; a re-render with the same target does not rerun the effect, and one with a new target reruns it |
| `Countdown.NoTargetStaysZero` | frontend/src/app/components/Countdown.tsx:11-14 | without a target the stored time stays 0 and no interval runs, whatever renders and ticks follow |
| `Countdown.NoTargetDisplaysZero` | frontend/src/app/components/Countdown.tsx:11-48 | mounted without a target, the countdown shows "00:00:00" for good |
| `Countdown.ClearingKeepsLastValue` | frontend/src/app/components/Countdown.tsx:13-34 | switching the target to undefined stops the timer but keeps the last value shown |
| `Countdown.TicksNeverIncrease` | frontend/src/app/components/Countdown.tsx:18-32 | as the clock moves forward, successive ticks never raise the time left |
| `Countdown.CompletionRepeats` | frontend/src/app/components/Countdown.tsx:22-32 | past the deadline each tick fires `onComplete` once more, so two ticks add exactly two calls |
| `RightPanel.SplitDiff` | frontend/src/app/home-page/components/RightPanel.tsx:121-124 | hours below 24, minutes and seconds below 60, and days·86400 + hours·3600 + minutes·60 + seconds equals the whole seconds left |
| `RightPanel.SplitDiffUnique` | frontend/src/app/home-page/components/RightPanel.tsx:121-124 | no other days/hours/minutes/seconds reading in those ranges adds up to the same seconds |
| `RightPanel.TruncatesTowardZero` | frontend/src/app/home-page/components/RightPanel.tsx:121-124 | the shown units never round up: the shown days and hours are at most the difference and one more hour exceeds it, and likewise for seconds below a day |
| `RightPanel.TimeLeftText` | frontend/src/app/home-page/components/RightPanel.tsx:126-129 | from one day up the text has a 'd' and ends in 'h'; below a day it has no 'd' and ends in 's'; it has an 'm' exactly below a day |
| `RightPanel.TimeLeftTextRoundTrip` | frontend/src/app/home-page/components/RightPanel.tsx:126-129 | the text reads back as exactly its days and hours from one day up, and as its hours, minutes and seconds below that; the reader accepts only plain decimal numbers without leading zeros, so every number is printed unpadded |
| `RightPanel.Remaining` | frontend/src/app/home-page/components/RightPanel.tsx:112-130 | `remaining` is "Redeem Now" exactly when the round end is at or before now, and the time-left text otherwise |
| `RightPanel.TicketRow` | frontend/src/app/home-page/components/RightPanel.tsx:112-169 | the button is enabled and opens the refund modal exactly when the ticket is redeemable, and reads "Redeem Now" exactly then; otherwise it shows the time left |
| `RightPanel.RedeemableStays` | frontend/src/app/home-page/components/RightPanel.tsx:112-115 | a redeemable ticket stays redeemable at every later instant |
| `RightPanel.PendingRowReadsBack` | frontend/src/app/home-page/components/RightPanel.tsx:118-168 | a disabled row's text reads back as the time left until its round ends |
| `RightPanel.AddressLine` | frontend/src/app/home-page/components/RightPanel.tsx:82 | with an address: its first 8 characters (all of it if shorter), then "...", then its last 4; without one, "N/A" |
| `RightPanel.FullAddressLine` | frontend/src/app/home-page/components/RightPanel.tsx:82 | a 42-character address shows as 15 characters, `a[..8] + "..." + a[38..]` |
| `RightPanel.TicketsView` | frontend/src/app/home-page/components/RightPanel.tsx:104-111 | the loading line shows exactly while loading; "You have no tickets yet." shows exactly when the list is undefined or empty and not loading; one row per ticket, in order |
| `BuyTickets.BuyDisabled` | frontend/src/app/home-page/components/BuyTicketsSection.tsx:63 | disabled whenever the round is not truthily active or the page is loading, a buy is pending or the round has ended; enabled when the round is active and none of those hold |
| `BuyTickets.FinalizingWarning` | frontend/src/app/home-page/components/BuyTicketsSection.tsx:76-81 | the warning implies a disabled button; it shows exactly when the round is not active (unknown or false) and nothing loads |
| `BuyTickets.Label` | frontend/src/app/home-page/components/BuyTicketsSection.tsx:66-72 | label priority: pending gives "Buying...", then an ended round, then an inactive round that is not loading, else "Buy", each as an if-and-only-if |
| `BuyTickets.Button` | frontend/src/app/home-page/components/BuyTicketsSection.tsx:58-72 | enabled exactly when the round is active and nothing is loading, pending or ended; dimmed exactly when disabled; an enabled button reads "Buy" |
| `BuyTickets.EnabledMeansBuy` | frontend/src/app/home-page/components/BuyTicketsSection.tsx:63-72 | an enabled buy button is labelled "Buy" |
| `BuyTickets.WarningConsistent` | frontend/src/app/home-page/components/BuyTicketsSection.tsx:63-81 | the finalizing warning never shows beside a usable button, and the "Finalizing" label shows only with the warning |
| `BuyTickets.BuyLabelOnDisabledButton` | frontend/src/app/home-page/components/BuyTicketsSection.tsx:63-72 | a disabled button reads "Buy" only while the page is loading |
| `BuyTickets.CountdownTarget` | frontend/src/app/home-page/components/BuyTicketsSection.tsx:105-109 | the countdown gets a target exactly when the round is active and the end timestamp is truthy |
| `BuyTickets.InactiveRoundShowsZero` | frontend/src/app/home-page/components/BuyTicketsSection.tsx:104-110 | with no active round the card's countdown shows "00:00:00" and keeps showing it while no target arrives |
| `BuyTickets.ParticipantCount` | frontend/src/app/home-page/components/BuyTicketsSection.tsx:120-124 | "..." while loading, else the decimal digits of the count with no leading zero, else "N/A" |
| `BuyTickets.ParticipantCountDistinct` | frontend/src/app/home-page/components/BuyTicketsSection.tsx:120-124 | the three shapes never collide: "..." means loading and "N/A" means no count |
| `WinnerSection.WinnerSuffix` | frontend/src/app/home-page/components/WinnerSection.tsx:55-59 | the " Winner!" suffix needs a connected address equal to the winner, an inactive round and a finished winner read, and shows whenever all of these hold; no address, no suffix |
| `WinnerSection.RoundTitle` | frontend/src/app/home-page/components/WinnerSection.tsx:54 | "#" followed by the id's decimal digits, with no leading zero, for a non-zero id; "#..." exactly when the id is undefined or zero |
| `WinnerSection.ClaimPrizeButton` | frontend/src/app/home-page/components/WinnerSection.tsx:106-117 | disabled exactly while claiming or once claimed; label priority pending, then claimed; "Claim Prize" exactly when enabled |
| `WinnerSection.ClaimPrincipalButton` | frontend/src/app/home-page/components/WinnerSection.tsx:133-146 | disabled and dimmed exactly while the claim is pending, "Claim Principal" exactly when enabled, and "Claiming Principal..." while pending |
| `WinnerSection.View` | frontend/src/app/home-page/components/WinnerSection.tsx:62-155 | the five views as if-and-only-ifs in priority order; the refund block exactly when a positive refund is expected |
| `WinnerSection.ViewLines` | frontend/src/app/home-page/components/WinnerSection.tsx:62-155 | "Better luck next time!" exactly in the loser view, with "Expected Refund:" or "No principal to claim." but never both |
| `WinnerSection.LoserRefundLine` | frontend/src/app/home-page/components/WinnerSection.tsx:121-150 | in the loser view "Expected Refund:" shows exactly when the refund is positive, "No principal to claim." otherwise |
| `WinnerSection.SuffixMatchesClaimView` | frontend/src/app/home-page/components/WinnerSection.tsx:55-92 | the claim view always comes with the " Winner!" suffix; the suffix comes with the claim view when nothing is loading |
| `WinnerSection.SuffixDuringLoading` | frontend/src/app/home-page/components/WinnerSection.tsx:55-89 | the suffix can show above "Loading round results..." while the prize, refund or round-id read is in flight |
| `WinnerSection.ClaimViewShowsAddress` | frontend/src/app/home-page/components/WinnerSection.tsx:90-98 | in the claim view the winning address is the user's own, never "N/A" |
| `WinnerSection.ClaimedPrizeBlocked` | frontend/src/app/home-page/components/WinnerSection.tsx:108-116 | a claimed prize leaves the button disabled and not reading "Claim Prize" |
| `UiButton.Render` | frontend/src/app/home-page/components/UiButton.tsx:20-35 | disabled exactly when not active, disabled or loading; "Loading..." while loading, the text otherwise; base classes then the active or inactive set |
| `UiButton.InactiveIsDisabled` | frontend/src/app/home-page/components/UiButton.tsx:30 | an inactive button is disabled whatever else is set |
| `UiButton.ClickableShowsText` | frontend/src/app/home-page/components/UiButton.tsx:30-35 | a clickable button is active, not disabled, not loading, and shows its text |
| `UiButton.ClassesFollowActive` | frontend/src/app/home-page/components/UiButton.tsx:31-33 | the class string depends on `active` alone |
| `UiButton.ClassesDistinguishActive` | frontend/src/app/home-page/components/UiButton.tsx:23-33 | active and inactive buttons get different classes |
| `ParticipantsModal.ShortAddress` | frontend/src/app/home-page/modals/ParticipantsModal.tsx:22 | a non-empty participant shows its first 6 characters, "...", its last 4; an empty one shows "Unknown Address" |
| `ParticipantsModal.ShortAddressDistinct` | frontend/src/app/home-page/modals/ParticipantsModal.tsx:22 | a shortened address is never "Unknown Address" |
| `ParticipantsModal.Render` | frontend/src/app/home-page/modals/ParticipantsModal.tsx:17-25 | loading line exactly while loading, error line exactly on error, "No participants yet." exactly when not loading and the list is undefined or empty; one "1 Ticket" row per participant, in order |
| `ParticipantsModal.NoUnknownFromHook` | frontend/src/app/home-page/modals/ParticipantsModal.tsx:12-22 | fed by `useParticipants`, no row ever shows "Unknown Address" |
| `ParticipantsModal.LoadingHidesEmpty` | frontend/src/app/home-page/modals/ParticipantsModal.tsx:12-19 | while the entry count loads, the modal shows its loading line and never "No participants yet." |
| `ReadLottery.PlainQuery` | frontend/hooks/useReadLottery.ts:28-33 | the argument-free reads are always enabled and pass no arguments |
| `ReadLottery.AddressQuery` | frontend/hooks/useReadLottery.ts:88-94 | an address-keyed read is enabled exactly when an address is given, passes it as its one argument, and passes none otherwise |
| `ReadLottery.TicketByIdQuery` | frontend/hooks/useReadLottery.ts:118-124 | the ticket-by-id read always passes the id and is enabled exactly for a non-zero id |
| `ReadLottery.ParticipantCalls` | frontend/hooks/useReadLottery.ts:211-218 | exactly `entryCount` calls, the i-th reading `entries(i)`; none for an undefined or zero count |
| `ReadLottery.EnabledIffCalls` | frontend/hooks/useReadLottery.ts:219-222 | the batch read is enabled exactly when the count has loaded and is truthy, that is defined and non-zero |
| `ReadLottery.KeepTruthy` | frontend/hooks/useReadLottery.ts:225 | the filtered list is no longer than the results, holds no empty address, and holds exactly the non-empty addresses read |
| `ReadLottery.KeepTruthyAppend` | frontend/hooks/useReadLottery.ts:225 | filtering distributes over concatenation, so the kept addresses keep their order |
| `ReadLottery.KeepTruthyAllPresent` | frontend/hooks/useReadLottery.ts:225 | when every read returned an address, the list is those addresses, one for one |
| `ReadLottery.UseParticipants` | frontend/hooks/useReadLottery.ts:225-242 | data is the filtered list exactly when the batch has data; loading is the OR of the two loading flags |
| `ReadLottery.ParticipantsBounded` | frontend/hooks/useReadLottery.ts:211-225 | with one answer per call, there are never more participants than entries, and none is empty |
| `ReadLottery.Observe` | frontend/hooks/useReadLottery.ts:97-108 | the error toast fires exactly on an error not yet toasted; both flags only ever turn on |
| `ReadLottery.ToastAtMostOnce` | frontend/hooks/useReadLottery.ts:97-108 | over any run of effects the error toast fires at most once, never again once fired, and exactly once from a fresh hook if any run saw an error |
| `ReadLottery.LatchNeverResets` | frontend/hooks/useReadLottery.ts:97-108 | the error and success marks never reset, and any observed error sets the error mark |
| `LotteryWrite.FunctionName` | frontend/hooks/useLotteryWrite.ts:107-140 | only the emergency-withdraw helper calls `emergencyWithdrawAllFromStrategy` |
| `LotteryWrite.Target` | frontend/hooks/useLotteryWrite.ts:107-140 | start and close go to the lottery manager; harvest, emergency withdraw and reset go to the vault |
| `LotteryWrite.FunctionNamesDistinct` | frontend/hooks/useLotteryWrite.ts:107-140 | no two helpers call the same contract function |
| `LotteryWrite.FlagsOf` | frontend/hooks/useLotteryWrite.ts:153-155 | at most one of loading, success and error holds, and none holds exactly when idle |
| `LotteryWrite.EmbeddedAddress` | frontend/hooks/useLotteryWrite.ts:44 | the address of the first wallet when there is one, undefined otherwise |
| `LotteryWrite.FailureText` | frontend/hooks/useLotteryWrite.ts:100 | the failure toast quotes the error message, or "Unknown error" when it is empty |
| `LotteryWrite.BeginSend` | frontend/hooks/useLotteryWrite.ts:60-62 | before sending: status pending, error and hash cleared, nothing else touched |
| `LotteryWrite.FinishSend` | frontend/hooks/useLotteryWrite.ts:81-101 | success stores the hash and sets success, raising the flag only for the withdraw function; failure stores the error and sets error |
| `LotteryWrite.Execute` | frontend/hooks/useLotteryWrite.ts:31-103 | without a wallet: throws, one error toast, state unchanged; with one: a zero-value sponsored request from the wallet address, success resolves with the send result (represented by its hash), failure rethrows the error |
| `LotteryWrite.Invoke` | frontend/hooks/useLotteryWrite.ts:107-140 | each helper records its function name first, targets its contract, and raises the withdraw flag only on a successful emergency withdrawal |
| `LotteryWrite.ResetWithdrawSuccess` | frontend/hooks/useLotteryWrite.ts:26-29 | the reset lowers the withdraw flag and changes nothing else |
| `LotteryWrite.WithdrawFlagHistory` | frontend/hooks/useLotteryWrite.ts:26-94 | after any command sequence the flag is set exactly when a successful withdrawal came after the last reset, or it started set and no reset came |
| `LotteryWrite.FlagRaisedOnlyByWithdraw` | frontend/hooks/useLotteryWrite.ts:91-94 | a single command raises the flag only by a successful emergency withdrawal |
| `LotteryWrite.FlagLoweredOnlyByReset` | frontend/hooks/useLotteryWrite.ts:26-29 | a single command lowers the flag only if it is the reset |
| `LotteryWrite.ReachableSettled` | frontend/hooks/useLotteryWrite.ts:18-101 | for helper calls that do not overlap, every reachable state is never left pending, holds a hash exactly after a success, and holds an error exactly after a failure |
| `LotteryWrite.StartCall` | frontend/hooks/useLotteryWrite.ts:44-62 | a started helper names its function; without a wallet nothing else changes and nothing is in flight; with one the status is pending, the hash and error are cleared, and its send joins those in flight |
| `LotteryWrite.SettleCall` | frontend/hooks/useLotteryWrite.ts:67-101 | the chosen in-flight send leaves the list and its outcome is applied to the shared state; an index past the end changes nothing |
| `LotteryWrite.HookStep` | frontend/hooks/useLotteryWrite.ts:18-101 | with overlapping sends each event keeps a success holding a hash, a failure holding an error, idle holding neither and pending only while a send is in flight; only a successful withdrawal raises the flag and only the reset lowers it |
| `LotteryWrite.ReachableConsistent` | frontend/hooks/useLotteryWrite.ts:18-101 | every state reachable with overlapping sends keeps those four facts |
| `LotteryWrite.OverlapLeavesStaleHash` | frontend/hooks/useLotteryWrite.ts:60-101 | two overlapping sends where the first succeeds and the second fails end in the error status still holding the first hash, so the settled promise does not survive overlap |
| `Js.NatToString` | frontend/src/app/home-page/components/BuyTicketsSection.tsx:123 | decimal `toString`: digits only, no leading zero, reads back as the number |
| `Js.PadStart` | frontend/src/app/components/Countdown.tsx:43-45 | `padStart` keeps the string as a suffix and fills up to the width with the fill character |
| `Js.SliceHead` | frontend/src/app/home-page/components/RightPanel.tsx:82 | `s.slice(0, n)`: a prefix of `s` of length min(n, length) |
| `Js.SliceTail` | frontend/src/app/home-page/modals/ParticipantsModal.tsx:22 | `s.slice(-n)` for positive n: a suffix of `s` of length min(n, length) |
| `Js.Abbreviate` | frontend/src/app/home-page/modals/ParticipantsModal.tsx:22 | `s.slice(0, head) + "..." + s.slice(-tail)`: the head prefix, three dots, the tail suffix |

## Left out

- Amounts shown through `parseFloat(formatUnits(x, 6)).toFixed(4)`, the wallet balance, and its USD conversion through `Intl.NumberFormat`. These are floating point with locale-dependent output.
- `toLocaleString` dates for ticket and round end times. The output depends on the locale and time zone.
- The currency selector and the modal openers. These are event wiring with no logic.
- Timestamps and counts are unbounded integers. `Number(bigint)` loses precision above 2^53 and the model does not.
- Real time. `Date.now()` is the `now` carried by each event, `setInterval` is the `Tick` event, and the countdown's interval period is not modelled.
- `RightPanel.TicketsView`: one `now` serves every ticket row, while `RightPanel.tsx` calls `Date.now()` once per row; rows rendered across a clock step may differ in the source and not in the model.
- The `onComplete` closure of `Countdown.tsx` is captured when the effect runs. The model records only whether one was present then. The card that mounts the countdown passes none.
- Toasts are modelled for the write hook and for the live error toast of the read hooks. In the read hooks only `useUserTickets`, `useWinner` and `usePrizeClaimed` have a live effect; the others are commented out in the source.
- The reads and writes themselves. These are wagmi's `useReadContract`/`useReadContracts` and Privy's `sendTransaction`. Their answers are inputs, and the model does not constrain how the library sets `isLoading` and `isError`.
- ABI encoding. `encodeFunctionData` is assumed not to throw. Contract semantics live outside this repository.
- `LotteryWrite.Execute`: the source stores `result.hash` even when the wallet library returns no hash. The model always has a hash on success, and the promise resolves with the whole send result, which the model represents by its hash.
- `LotteryWrite.ReachableSettled`: it covers helper calls that each settle before the next starts. Overlapping sends are modelled separately by `HookStep` and `HookRun`; there a failure can keep an earlier hash (`OverlapLeavesStaleHash`), and only `ReachableConsistent` holds.
- `LotteryWrite.FinishSend`: a rejection is assumed to be an `Error` object with a string message. A rejection with `undefined` or `null` would make `error.message` throw at `useLotteryWrite.ts:100`, and a falsy rejection stored at line 98 would leave the error status without an error; neither is modelled.
- `Js.Abbreviate`: JavaScript's `slice` counts UTF-16 code units, while Dafny strings count Unicode scalar values. The two differ on text outside the Basic Multilingual Plane; ASCII addresses are unaffected.
- `Js.SliceHead`: same UTF-16 caveat as `Js.Abbreviate`.
- `Js.SliceTail`: same UTF-16 caveat as `Js.Abbreviate`; `s.slice(-n)` counts the last n UTF-16 code units.
- The per-action write hooks (approval, buy, claim prize, claim principal, start round, user registry). They repeat the status pattern of the admin write hook.
- Configuration and routing code: wallet and chain configuration, the landing page, the generic button, and the fund-wallet modal with its clipboard and QR-code I/O.

=== FILE: arith.dfy ===
/**
 * Facts about Euclidean division on natural numbers that the time
 * decompositions of the countdown and the ticket timer share.
 */
module Arith {

  lemma MulMono(a: nat, b: nat, k: nat)
    requires a <= b
    ensures a * k <= b * k
  {
  }

  /** Quotient and remainder of a division are unique. */
  lemma QuotientUnique(q1: nat, r1: nat, q2: nat, r2: nat, k: nat)
    requires r1 < k && r2 < k
    requires q1 * k + r1 == q2 * k + r2
    ensures q1 == q2 && r1 == r2
  {
    if q1 < q2 {
      MulMono(q1 + 1, q2, k);
    } else if q2 < q1 {
      MulMono(q2 + 1, q1, k);
    }
  }

  /** Dividing twice is dividing by the product. */
  lemma DivDiv(a: nat, b: nat, c: nat)
    requires b > 0 && c > 0
    ensures (a / b) / c == a / (b * c)
    ensures (a / b) % c == (a % (b * c)) / b
  {
    var q, r := a / (b * c), a % (b * c);
    var r1, r0 := r / b, r % b;
    RemainderQuotientBound(r, b, c);
    Regroup(a, q, r, r1, r0, b, c);
    QuotientUnique(a / b, a % b, q * c + r1, r0, b);
    QuotientUnique((a / b) / c, (a / b) % c, q, r1, c);
  }

  lemma RemainderQuotientBound(r: nat, b: nat, c: nat)
    requires b > 0 && r < b * c
    ensures r / b < c
  {
    if r / b >= c {
      MulMono(c, r / b, b);
    }
  }

  lemma Regroup(a: nat, q: nat, r: nat, r1: nat, r0: nat, b: nat, c: nat)
    requires a == q * (b * c) + r
    requires r == r1 * b + r0
    ensures a == (q * c + r1) * b + r0
  {
    assert q * (b * c) == (q * c) * b;
    assert (q * c + r1) * b == (q * c) * b + r1 * b;
  }
}

=== FILE: buy_tickets.dfy ===
/**
 * The "Buy Tickets" card (`BuyTicketsSection.tsx`): when the buy button is
 * usable, which label it carries, the "finalizing" warning, the target handed
 * to the countdown and the participant count.
 */
module BuyTickets {
  import opened Js
  import Countdown

  datatype Props = Props(
    roundActive: Option<bool>,
    isLoading: bool,
    isBuyTicketPending: bool,
    roundEnded: bool,
    roundEndTimestamp: Option<int>,
    isEntryCountLoading: bool,
    entryCount: Option<nat>)

  /** The four labels of the buy button, in priority order. */
  datatype BuyLabel = Buying | RoundEndedLabel | Finalizing | Buy

  function LabelText(l: BuyLabel): string {
    match l
    case Buying => "Buying..."
    case RoundEndedLabel => "Round Ended"
    case Finalizing => "Finalizing previous round!"
    case Buy => "Buy"
  }

  /** The button's `disabled` attribute. */
  predicate BuyDisabled(p: Props)
    ensures !TruthyBool(p.roundActive) ==> BuyDisabled(p)
    ensures p.isLoading || p.isBuyTicketPending || p.roundEnded ==> BuyDisabled(p)
    ensures p.roundActive == Some(true) && !p.isLoading && !p.isBuyTicketPending && !p.roundEnded ==> !BuyDisabled(p)
  {
    !TruthyBool(p.roundActive) || p.isLoading || p.isBuyTicketPending || p.roundEnded
  }

  /** The warning paragraph below the button. */
  predicate FinalizingWarning(p: Props)
    ensures FinalizingWarning(p) ==> BuyDisabled(p)
    ensures p.roundActive.None? && !p.isLoading ==> FinalizingWarning(p)
    ensures p.roundActive == Some(false) && !p.isLoading ==> FinalizingWarning(p)
    ensures p.roundActive == Some(true) || p.isLoading ==> !FinalizingWarning(p)
  {
    !TruthyBool(p.roundActive) && !p.isLoading
  }

  /**
   * The button label: a pending purchase wins, then an ended round, then a
   * round that is neither active nor loading; otherwise "Buy".
   */
  function Label(p: Props): (l: BuyLabel)
    ensures l == Buying <==> p.isBuyTicketPending
    ensures l == RoundEndedLabel <==> !p.isBuyTicketPending && p.roundEnded
    ensures l == Finalizing <==> !p.isBuyTicketPending && !p.roundEnded && FinalizingWarning(p)
    ensures l == Buy <==> !p.isBuyTicketPending && !p.roundEnded && !FinalizingWarning(p)
  {
    if p.isBuyTicketPending then Buying
    else if p.roundEnded then RoundEndedLabel
    else if !TruthyBool(p.roundActive) && !p.isLoading then Finalizing
    else Buy
  }

  /** What the button shows: whether it is disabled, whether it is dimmed, and its label. */
  datatype BuyButton = BuyButton(disabled: bool, dimmed: bool, caption: BuyLabel)

  function Button(p: Props): (b: BuyButton)
    ensures !b.disabled <==> TruthyBool(p.roundActive) && !p.isLoading && !p.isBuyTicketPending && !p.roundEnded
    ensures b.dimmed <==> b.disabled
    ensures !b.disabled ==> b.caption == Buy
    ensures b.caption != Buy ==> b.disabled
    ensures !b.disabled <==> b.caption == Buy && !p.isLoading
  {
    BuyButton(BuyDisabled(p), BuyDisabled(p), Label(p))
  }

  /** An enabled button always reads "Buy". */
  lemma EnabledMeansBuy(p: Props)
    requires !BuyDisabled(p)
    ensures LabelText(Label(p)) == "Buy"
  {
  }

  /**
   * The warning never shows beside a usable button, and whenever it shows
   * the label is one of the three non-"Buy" labels.
   */
  lemma WarningConsistent(p: Props)
    ensures FinalizingWarning(p) ==> BuyDisabled(p)
    ensures FinalizingWarning(p) ==> Label(p) != Buy
    ensures Label(p) == Finalizing ==> FinalizingWarning(p)
  {
  }

  /** A disabled button reads "Buy" only while the page is still loading. */
  lemma BuyLabelOnDisabledButton(p: Props)
    requires Label(p) == Buy && BuyDisabled(p)
    ensures p.isLoading
  {
  }

  /**
   * The countdown gets `Number(roundEndTimestamp)` only while the round is
   * active and the timestamp is truthy (defined and not 0n).
   */
  function CountdownTarget(p: Props): (t: Option<int>)
    ensures t.Some? <==> TruthyBool(p.roundActive) && TruthyInt(p.roundEndTimestamp)
    ensures t.Some? ==> t == p.roundEndTimestamp && TruthyInt(t)
  {
    if TruthyBool(p.roundActive) && TruthyInt(p.roundEndTimestamp) then p.roundEndTimestamp else None
  }

  /**
   * The card mounts its countdown without `onComplete`. With no active round
   * it gets no target, so it shows "00:00:00" and keeps showing it through
   * ticks and through re-renders that still supply no target.
   */
  lemma InactiveRoundShowsZero(p: Props, now: int, es: seq<Countdown.Event>)
    requires !TruthyBool(p.roundActive)
    requires Countdown.NoTarget(es)
    ensures Countdown.Display(Countdown.Run(Countdown.Mount(CountdownTarget(p), false, now), es)) == "00:00:00"
  {
    Countdown.NoTargetDisplaysZero(CountdownTarget(p), false, now, es);
  }

  /** The participant count: "..." while loading, the count when known, else "N/A". */
  function ParticipantCount(p: Props): (r: string)
    ensures p.isEntryCountLoading ==> r == "..."
    ensures !p.isEntryCountLoading && p.entryCount.None? ==> r == "N/A"
    ensures !p.isEntryCountLoading && p.entryCount.Some? ==>
      AllDigits(r) && DigitsValue(r) == p.entryCount.value && (|r| > 1 ==> r[0] != '0')
  {
    if p.isEntryCountLoading then "..."
    else if p.entryCount.Some? then NatToString(p.entryCount.value)
    else "N/A"
  }

  /** The three shapes of the participant count never collide. */
  lemma ParticipantCountDistinct(p: Props)
    ensures ParticipantCount(p) == "..." <==> p.isEntryCountLoading
    ensures ParticipantCount(p) == "N/A" <==> !p.isEntryCountLoading && p.entryCount.None?
  {
    if !p.isEntryCountLoading && p.entryCount.Some? {
      var r := ParticipantCount(p);
      assert IsDigit(r[0]);
    }
  }
}

=== FILE: countdown.dfy ===
/**
 * The round countdown (`Countdown.tsx`): a timer that stores the
 * milliseconds left until a target UNIX time, clamps at zero, and shows the
 * value as `HH:MM:SS`. The wall clock becomes the `now` argument of each
 * event; `setInterval` becomes the `Tick` event.
 */
module Countdown {
  import opened Js
  import opened Arith
  import opened Time

  const EndingMs: nat := 10_000
  const CriticalMs: nat := 5_000

  // ---------------------------------------------------------------------
  // formatTime
  // ---------------------------------------------------------------------

  /** Whole hours, minutes and seconds of a duration. */
  datatype Clock = Clock(hours: nat, minutes: nat, seconds: nat)

  /** A clock reading is normal when minutes and seconds are below 60. */
  predicate Normal(c: Clock) {
    c.minutes < 60 && c.seconds < 60
  }

  function ClockSeconds(c: Clock): nat {
    c.hours * 3600 + c.minutes * 60 + c.seconds
  }

  /** The decomposition `formatTime` performs on a non-negative millisecond count. */
  function Split(ms: nat): (c: Clock)
    ensures Normal(c)
    ensures ClockSeconds(c) == ms / MsPerSecond
  {
    var total := ms / MsPerSecond;
    var c := Clock(total / 3600, (total % 3600) / 60, total % 60);
    DivModSplit(total);
    c
  }

  lemma DivModSplit(total: nat)
    ensures (total / 3600) * 3600 + ((total % 3600) / 60) * 60 + total % 60 == total
    ensures (total % 3600) / 60 < 60
  {
    var r := total % 3600;
    assert total == (total / 3600) * 3600 + r;
    assert r == (r / 60) * 60 + r % 60;
    assert r % 60 == total % 60 by {
      assert total == ((total / 3600) * 60) * 60 + r;
      ModOfMultiplePlus((total / 3600) * 60, r);
    }
  }

  lemma ModOfMultiplePlus(q: nat, r: nat)
    ensures (q * 60 + r) % 60 == r % 60
  {
  }

  /**
   * The decomposition is the only normal clock reading of the duration:
   * any hours/minutes/seconds triple with minutes and seconds below 60 that
   * adds up to the same whole seconds is the one `Split` returns.
   */
  lemma {:induction false} SplitUnique(ms: nat, c: Clock)
    requires Normal(c)
    requires ClockSeconds(c) == ms / MsPerSecond
    ensures c == Split(ms)
  {
    var d := Split(ms);
    QuotientUnique(c.hours, c.minutes * 60 + c.seconds, d.hours, d.minutes * 60 + d.seconds, 3600);
    QuotientUnique(c.minutes, c.seconds, d.minutes, d.seconds, 60);
  }

  /** `n.toString().padStart(2, "0")`. */
  function Two(n: nat): (s: string)
    ensures AllDigits(s) && DigitsValue(s) == n
    ensures n < 100 ==> |s| == 2
    ensures |s| >= 2
    ensures n >= 10 ==> s == NatToString(n)
    ensures n < 10 ==> s == "0" + NatToString(n)
    ensures |s| > 2 ==> s[0] != '0'
  {
    var s := PadStart(NatToString(n), 2, '0');
    PadZerosValue(NatToString(n), 2);
    s
  }

  /** The clock reading as `HH:MM:SS`, each field padded to two digits. */
  function FormatClock(c: Clock): (r: string)
    ensures c.hours < 100 && Normal(c) ==> |r| == 8
    ensures |r| >= 8
  {
    Two(c.hours) + ":" + Two(c.minutes) + ":" + Two(c.seconds)
  }

  /** `formatTime(ms)`: the clock reading of `ms` in `HH:MM:SS` form. */
  function FormatTime(ms: nat): (r: string)
    ensures Split(ms).hours < 100 ==> |r| == 8
    ensures |r| >= 8
  {
    FormatClock(Split(ms))
  }

  /**
   * The layout of a formatted reading: the last six characters are
   * `:MM:SS`, everything before them is the padded hours.
   */
  lemma FormatClockFields(c: Clock)
    requires Normal(c)
    ensures var r := FormatClock(c);
      && r[|r| - 6] == ':' && r[|r| - 3] == ':'
      && r[..|r| - 6] == Two(c.hours)
      && r[|r| - 5..|r| - 3] == Two(c.minutes)
      && r[|r| - 2..] == Two(c.seconds)
  {
    JoinFields(FormatClock(c), Two(c.hours), Two(c.minutes), Two(c.seconds));
  }

  lemma JoinFields(r: string, h: string, m: string, sec: string)
    requires |m| == 2 && |sec| == 2
    requires r == h + ":" + m + ":" + sec
    ensures r[..|r| - 6] == h && r[|r| - 6] == ':' && r[|r| - 5..|r| - 3] == m
      && r[|r| - 3] == ':' && r[|r| - 2..] == sec
  {
  }

  /**
   * Reads an `H..H:MM:SS` string back into a clock reading; `None` for a
   * string of any other shape.
   */
  function ParseClock(s: string): Option<Clock> {
    if |s| < 8 || s[|s| - 6] != ':' || s[|s| - 3] != ':' then None
    else
      var h := s[..|s| - 6];
      var m := s[|s| - 5..|s| - 3];
      var sec := s[|s| - 2..];
      if AllDigits(h) && AllDigits(m) && AllDigits(sec)
         && DigitsValue(m) < 60 && DigitsValue(sec) < 60
      then Some(Clock(DigitsValue(h), DigitsValue(m), DigitsValue(sec)))
      else None
  }

  /**
   * The formatted string reads back as the normal clock reading of the
   * duration, and so as exactly the whole seconds left.
   */
  lemma FormatTimeRoundTrip(ms: nat)
    ensures ParseClock(FormatTime(ms)).Some?
    ensures ParseClock(FormatTime(ms)).value == Split(ms)
    ensures ClockSeconds(ParseClock(FormatTime(ms)).value) == ms / MsPerSecond
  {
    ClockRoundTrip(Split(ms));
  }

  /** Every normal clock reading survives formatting and parsing. */
  lemma ClockRoundTrip(c: Clock)
    requires Normal(c)
    ensures ParseClock(FormatClock(c)) == Some(c)
  {
    ParseFields(Two(c.hours), Two(c.minutes), Two(c.seconds), c);
  }

  /** Three digit fields joined by colons parse back into those fields. */
  lemma ParseFields(h: string, m: string, sec: string, c: Clock)
    requires |h| >= 2 && |m| == 2 && |sec| == 2 && Normal(c)
    requires AllDigits(h) && AllDigits(m) && AllDigits(sec)
    requires DigitsValue(h) == c.hours && DigitsValue(m) == c.minutes && DigitsValue(sec) == c.seconds
    ensures ParseClock(h + ":" + m + ":" + sec) == Some(c)
  {
    JoinFields(h + ":" + m + ":" + sec, h, m, sec);
  }

  /** Zero milliseconds displays as "00:00:00". */
  lemma FormatZero()
    ensures FormatTime(0) == "00:00:00"
  {
    FormatZeroFields();
    ZeroFieldsJoined();
  }

  lemma FormatZeroFields()
    ensures FormatTime(0) == FormatClock(Clock(0, 0, 0))
  {
    assert Split(0) == Clock(0, 0, 0);
  }

  lemma ZeroFieldsJoined()
    ensures FormatClock(Clock(0, 0, 0)) == "00:00:00"
  {
    TwoZero();
  }

  lemma TwoZero()
    ensures Two(0) == "00"
  {
    assert DigitChar(0) == '0';
    assert NatToString(0) == "0";
    assert Repeat('0', 1) == ['0'] + Repeat('0', 0) == "0";
    assert PadStart("0", 2, '0') == "00";
  }

  // ---------------------------------------------------------------------
  // Urgency styling
  // ---------------------------------------------------------------------

  /** `isEnding` and `isCritical` for a stored time-left value. */
  datatype Urgency = Urgency(ending: bool, critical: bool)

  function UrgencyOf(timeLeft: int): (u: Urgency)
    ensures u.ending <==> 0 < timeLeft <= EndingMs as int
    ensures u.critical <==> 0 < timeLeft <= CriticalMs as int
    ensures u.critical ==> u.ending
    ensures timeLeft <= 0 ==> !u.ending && !u.critical
    ensures timeLeft > EndingMs as int ==> !u.ending
    ensures 0 < timeLeft <= CriticalMs as int ==> u.critical
  {
    Urgency(timeLeft <= EndingMs as int && timeLeft > 0,
            timeLeft <= CriticalMs as int && timeLeft > 0)
  }

  /** The class names of the `<span>`: red and bold when ending, pulsing when critical. */
  function SpanClasses(u: Urgency): (r: seq<string>)
    ensures "animate-pulse" in r <==> u.critical
    ensures "text-red-500 font-bold" in r <==> u.ending
    ensures "text-white" in r <==> !u.ending
  {
    [if u.ending then "text-red-500 font-bold" else "text-white",
     if u.critical then "animate-pulse" else ""]
  }

  // ---------------------------------------------------------------------
  // The timer state machine
  // ---------------------------------------------------------------------

  /**
   * Component state: the target the effect last ran for, the stored time
   * left, whether an interval is installed, whether the closure the
   * interval runs holds an `onComplete` callback, and how many times that
   * callback has fired.
   */
  datatype State = State(
    target: Option<int>,
    timeLeft: int,
    ticking: bool,
    callback: bool,
    completions: nat)

  predicate Valid(s: State) {
    && s.timeLeft >= 0
    && (s.ticking ==> TruthyInt(s.target))
  }

  function Max0(x: int): nat {
    if x <= 0 then 0 else x
  }

  /**
   * One run of the `update` closure: clamp the difference at zero and fire
   * `onComplete` (when present) whenever the deadline has passed.
   */
  function Update(s: State, now: int): (s': State)
    requires TruthyInt(s.target)
    ensures s'.timeLeft == Max0(MsUntil(s.target.value, now))
    ensures s'.timeLeft >= 0
    ensures s'.completions > s.completions <==> MsUntil(s.target.value, now) <= 0 && s.callback
    ensures s'.completions <= s.completions + 1
    ensures s'.target == s.target && s'.ticking == s.ticking && s'.callback == s.callback
  {
    var diff := MsUntil(s.target.value, now);
    if diff <= 0 then
      s.(timeLeft := 0, completions := s.completions + if s.callback then 1 else 0)
    else
      s.(timeLeft := diff)
  }

  /**
   * The effect body, run on mount and whenever `targetTimestamp` changes:
   * the old interval is cleared; a falsy target (undefined or 0) stops
   * there and leaves `timeLeft` as it was; otherwise one update runs now
   * and an interval is installed.
   */
  function RunEffect(s: State, target: Option<int>, callback: bool, now: int): (s': State)
    requires Valid(s)
    ensures Valid(s')
    ensures s'.target == target && s'.ticking == TruthyInt(target)
    ensures !TruthyInt(target) ==> s'.timeLeft == s.timeLeft && s'.completions == s.completions
    ensures TruthyInt(target) ==> s'.timeLeft == Max0(MsUntil(target.value, now))
    ensures s'.callback == callback
    ensures TruthyInt(target) ==>
      (s'.completions > s.completions <==> MsUntil(target.value, now) <= 0 && callback)
    ensures s'.completions <= s.completions + 1
  {
    var cleared := s.(target := target, ticking := false, callback := callback);
    if !TruthyInt(target) then cleared
    else Update(cleared.(ticking := true), now)
  }

  /** The first render: `useState(0)` then the effect. */
  function Mount(target: Option<int>, callback: bool, now: int): (s: State)
    ensures Valid(s)
    ensures !TruthyInt(target) ==> s.timeLeft == 0 && !s.ticking
    ensures TruthyInt(target) ==> s.timeLeft == Max0(MsUntil(target.value, now)) && s.ticking
  {
    RunEffect(State(None, 0, false, false, 0), target, callback, now)
  }

  /** Events after mount: a re-render with new props, or an interval tick. */
  datatype Event = Render(target: Option<int>, callback: bool, now: int) | Tick(now: int)

  function Step(s: State, e: Event): (s': State)
    requires Valid(s)
    ensures Valid(s')
    ensures e.Tick? && !s.ticking ==> s' == s
    ensures e.Tick? && s.ticking ==> s'.timeLeft == Max0(MsUntil(s.target.value, e.now))
    ensures e.Tick? && s.ticking ==>
      && s'.target == s.target && s'.ticking && s'.callback == s.callback
      && (s'.completions > s.completions <==> MsUntil(s.target.value, e.now) <= 0 && s.callback)
      && s'.completions <= s.completions + 1
    ensures e.Render? && e.target == s.target ==> s' == s
    ensures e.Render? && e.target != s.target ==> s' == RunEffect(s, e.target, e.callback, e.now)
  {
    match e
    case Render(t, cb, now) => if t == s.target then s else RunEffect(s, t, cb, now)
    case Tick(now) => if s.ticking then Update(s, now) else s
  }

  function Run(s: State, es: seq<Event>): (s': State)
    requires Valid(s)
    ensures Valid(s')
    decreases |es|
  {
    if es == [] then s else Run(Step(s, es[0]), es[1..])
  }

  /** What the component displays. */
  function Display(s: State): (r: string)
    requires Valid(s)
    ensures |r| >= 8
    ensures ParseClock(r) == Some(Split(s.timeLeft))
  {
    FormatTimeRoundTrip(s.timeLeft);
    FormatTime(s.timeLeft)
  }

  /** No render in `es` ever supplies a truthy target. */
  predicate NoTarget(es: seq<Event>) {
    forall i :: 0 <= i < |es| ==> es[i].Tick? || !TruthyInt(es[i].target)
  }

  /**
   * Without a target the timer never runs: from a mount without a target,
   * through any renders without one and any ticks, the stored time stays at
   * its initial 0.
   */
  lemma {:induction false} NoTargetStaysZero(s: State, es: seq<Event>)
    requires Valid(s) && !s.ticking && s.timeLeft == 0
    requires NoTarget(es)
    ensures Run(s, es).timeLeft == 0 && !Run(s, es).ticking
    ensures Run(s, es).completions == s.completions
    decreases |es|
  {
    if es != [] {
      var s1 := Step(s, es[0]);
      assert NoTarget(es[1..]) by {
        forall i | 0 <= i < |es[1..]|
          ensures es[1..][i].Tick? || !TruthyInt(es[1..][i].target)
        {
          assert es[1..][i] == es[i + 1];
        }
      }
      NoTargetStaysZero(s1, es[1..]);
    }
  }

  /** Mounting without a target displays "00:00:00" for good. */
  lemma NoTargetDisplaysZero(target: Option<int>, callback: bool, now: int, es: seq<Event>)
    requires !TruthyInt(target)
    requires NoTarget(es)
    ensures Display(Run(Mount(target, callback, now), es)) == "00:00:00"
  {
    NoTargetStaysZero(Mount(target, callback, now), es);
    FormatZero();
  }

  /** Clearing the target stops the timer but keeps the last value on screen. */
  lemma ClearingKeepsLastValue(s: State, now: int)
    requires Valid(s) && TruthyInt(s.target)
    ensures Step(s, Render(None, false, now)).timeLeft == s.timeLeft
    ensures !Step(s, Render(None, false, now)).ticking
  {
  }

  /** Between two ticks the time left never grows while the clock moves forward. */
  lemma TicksNeverIncrease(s: State, now1: int, now2: int)
    requires Valid(s) && s.ticking
    requires now1 <= now2
    ensures Step(Step(s, Tick(now1)), Tick(now2)).timeLeft <= Step(s, Tick(now1)).timeLeft
  {
  }

  /**
   * `onComplete` keeps firing on every tick past the deadline, not only
   * once: two ticks after the deadline add two completions.
   */
  lemma CompletionRepeats(s: State, now1: int, now2: int)
    requires Valid(s) && s.ticking && s.callback
    requires MsUntil(s.target.value, now1) <= 0 && MsUntil(s.target.value, now2) <= 0
    ensures Step(Step(s, Tick(now1)), Tick(now2)).completions == s.completions + 2
  {
  }
}

=== FILE: js.dfy ===
/**
 * The handful of JavaScript run-time behaviours the lottery front-end leans
 * on, stated once: `undefined`, truthiness, decimal `toString`, `padStart`
 * and `String.prototype.slice`. Every other module imports this one.
 */
module Js {

  /** A value that may be `undefined`. */
  datatype Option<+T> = None | Some(value: T)

  /** Truthiness of an optional string: `undefined` and `""` are falsy. */
  predicate TruthyStr(s: Option<string>) {
    s.Some? && s.value != ""
  }

  /** Truthiness of an optional boolean: only `true` is truthy. */
  predicate TruthyBool(b: Option<bool>) {
    b == Some(true)
  }

  /** Truthiness of an optional number or bigint: `undefined`, `0` and `0n` are falsy. */
  predicate TruthyInt(n: Option<int>) {
    n.Some? && n.value != 0
  }

  // ---------------------------------------------------------------------
  // Decimal digits
  // ---------------------------------------------------------------------

  predicate IsDigit(c: char) {
    '0' <= c <= '9'
  }

  predicate AllDigits(s: string) {
    forall i :: 0 <= i < |s| ==> IsDigit(s[i])
  }

  function DigitChar(d: nat): (c: char)
    requires d < 10
    ensures IsDigit(c)
    ensures c as int - '0' as int == d
  {
    (('0' as int) + d) as char
  }

  function DigitValue(c: char): nat
    requires IsDigit(c)
  {
    c as int - '0' as int
  }

  /** The number a string of decimal digits denotes, most significant digit first. */
  function DigitsValue(s: string): nat
    requires AllDigits(s)
  {
    if s == [] then 0 else DigitsValue(s[..|s| - 1]) * 10 + DigitValue(s[|s| - 1])
  }

  /**
   * `n.toString()` for a non-negative integer `n` (a JavaScript number below
   * 2^53 or a bigint): its decimal digits without leading zeros.
   */
  function NatToString(n: nat): (s: string)
    ensures AllDigits(s)
    ensures DigitsValue(s) == n
    ensures 1 <= |s|
    ensures |s| > 1 ==> s[0] != '0'
    ensures |s| == 1 <==> n < 10
    ensures |s| == 2 <==> 10 <= n < 100
  {
    if n < 10 then [DigitChar(n)]
    else
      var p := NatToString(n / 10);
      var s := p + [DigitChar(n % 10)];
      assert s[..|s| - 1] == p;
      s
  }

  /** `count` copies of the character `c`. */
  function Repeat(c: char, count: nat): (r: string)
    ensures |r| == count
    ensures forall i :: 0 <= i < count ==> r[i] == c
  {
    if count == 0 then [] else [c] + Repeat(c, count - 1)
  }

  /** `s.padStart(width, fill)` with a one-character fill string. */
  function PadStart(s: string, width: nat, fill: char): (r: string)
    ensures |r| == if |s| >= width then |s| else width
    ensures r[|r| - |s|..] == s
    ensures forall i :: 0 <= i < |r| - |s| ==> r[i] == fill
  {
    if |s| >= width then s else Repeat(fill, width - |s|) + s
  }

  /** Leading zeros do not change the value of a digit string. */
  lemma {:induction false} LeadingZeros(k: nat, s: string)
    requires AllDigits(s)
    ensures AllDigits(Repeat('0', k) + s)
    ensures DigitsValue(Repeat('0', k) + s) == DigitsValue(s)
    decreases |s|, k
  {
    var z := Repeat('0', k);
    assert AllDigits(z + s);
    if s == [] {
      assert z + s == z;
      if k > 0 {
        assert z[..|z| - 1] == Repeat('0', k - 1) + [];
        LeadingZeros(k - 1, []);
      }
    } else {
      var init := s[..|s| - 1];
      assert (z + s)[..|z + s| - 1] == z + init;
      LeadingZeros(k, init);
    }
  }

  /** `s.padStart(2, "0")` applied to a decimal string keeps its value. */
  lemma PadZerosValue(s: string, width: nat)
    requires AllDigits(s)
    ensures AllDigits(PadStart(s, width, '0'))
    ensures DigitsValue(PadStart(s, width, '0')) == DigitsValue(s)
  {
    if |s| < width {
      LeadingZeros(width - |s|, s);
    }
  }

  // ---------------------------------------------------------------------
  // String.prototype.slice
  // ---------------------------------------------------------------------

  function Min(a: nat, b: nat): nat {
    if a <= b then a else b
  }

  /** `s.slice(0, n)`: at most the first `n` characters. */
  function SliceHead(s: string, n: nat): (r: string)
    ensures |r| == Min(n, |s|)
    ensures r <= s
  {
    s[..Min(n, |s|)]
  }

  /** `s.slice(-n)` for `n > 0`: at most the last `n` characters. */
  function SliceTail(s: string, n: nat): (r: string)
    requires n > 0
    ensures |r| == Min(n, |s|)
    ensures s == s[..|s| - |r|] + r
  {
    s[|s| - Min(n, |s|)..]
  }

  /**
   * The front-end's address shortening: the first `head` characters, three
   * dots, the last `tail` characters.
   */
  function Abbreviate(s: string, head: nat, tail: nat): (r: string)
    requires tail > 0
    ensures |r| == Min(head, |s|) + 3 + Min(tail, |s|)
    ensures r[..Min(head, |s|)] == s[..Min(head, |s|)]
    ensures r[Min(head, |s|)..Min(head, |s|) + 3] == "..."
    ensures r[|r| - Min(tail, |s|)..] == s[|s| - Min(tail, |s|)..]
  {
    SliceHead(s, head) + "..." + SliceTail(s, tail)
  }
}

=== FILE: lottery_write.dfy ===
/**
 * The admin write hook `useLotteryWrite.ts`: five action helpers that name a
 * contract function and hand it to `executeTransaction`, which checks for an
 * embedded wallet, moves the status to pending, sends a sponsored
 * transaction and records success or failure. The wallet library's
 * `sendTransaction` is a parameter: its outcome, a hash or an error, is
 * chosen by the caller of the model.
 */
module LotteryWrite {
  import opened Js

  // ---------------------------------------------------------------------
  // Actions and their targets
  // ---------------------------------------------------------------------

  datatype Contract = LotteryManager | TokenVault

  datatype Action = PerformStart | PerformClose | EarnAndHarvest | EmergencyWithdraw | ResetFlags

  const WithdrawFunction: string := "emergencyWithdrawAllFromStrategy"

  /** The contract function each helper calls. */
  function FunctionName(a: Action): (f: string)
    ensures f == WithdrawFunction <==> a == EmergencyWithdraw
  {
    match a
    case PerformStart => "performStart"
    case PerformClose => "performClose"
    case EarnAndHarvest => "earnAndHarvest"
    case EmergencyWithdraw => WithdrawFunction
    case ResetFlags => "resetFlags"
  }

  /** The contract each helper addresses: the round actions go to the manager, the rest to the vault. */
  function Target(a: Action): (c: Contract)
    ensures c == LotteryManager <==> a in {PerformStart, PerformClose}
    ensures c == TokenVault <==> a in {EarnAndHarvest, EmergencyWithdraw, ResetFlags}
  {
    match a
    case PerformStart => LotteryManager
    case PerformClose => LotteryManager
    case EarnAndHarvest => TokenVault
    case EmergencyWithdraw => TokenVault
    case ResetFlags => TokenVault
  }

  /** No two helpers call the same function. */
  lemma FunctionNamesDistinct(a: Action, b: Action)
    requires a != b
    ensures FunctionName(a) != FunctionName(b)
  {
  }

  // ---------------------------------------------------------------------
  // Hook state
  // ---------------------------------------------------------------------

  datatype Status = Idle | Pending | Success | Failed

  datatype TxError = TxError(message: string)

  datatype State = State(
    functionName: Option<string>,
    isWithdrawSuccessful: bool,
    status: Status,
    txHash: Option<string>,
    txError: Option<TxError>)

  const Initial: State := State(None, false, Idle, None, None)

  /** The three derived booleans the hook returns. */
  datatype Flags = Flags(isLoading: bool, isSuccess: bool, isError: bool)

  function FlagsOf(s: State): (f: Flags)
    ensures !(f.isLoading && f.isSuccess) && !(f.isLoading && f.isError) && !(f.isSuccess && f.isError)
    ensures s.status == Idle <==> !f.isLoading && !f.isSuccess && !f.isError
  {
    Flags(s.status == Pending, s.status == Success, s.status == Failed)
  }

  /**
   * Outside a send, a hash is held exactly after a success and an error
   * exactly after a failure.
   */
  predicate Settled(s: State) {
    && s.status != Pending
    && (s.txHash.Some? <==> s.status == Success)
    && (s.txError.Some? <==> s.status == Failed)
  }

  // ---------------------------------------------------------------------
  // executeTransaction
  // ---------------------------------------------------------------------

  datatype Wallet = Wallet(address: Option<string>)

  /** `wallets?.[0]?.address`. */
  function EmbeddedAddress(wallets: Option<seq<Wallet>>): (r: Option<string>)
    ensures r.Some? ==> wallets.Some? && |wallets.value| > 0 && r == wallets.value[0].address
    ensures wallets.Some? && |wallets.value| > 0 ==> r == wallets.value[0].address
  {
    if wallets.Some? && |wallets.value| > 0 then wallets.value[0].address else None
  }

  /** What `sendTransaction` does with the request. */
  datatype SendOutcome = Sent(hash: string) | Rejected(error: TxError)

  /** The transaction handed to `sendTransaction`, with its options. */
  datatype Request = Request(to: Contract, functionName: string, value: nat, sponsor: bool, from: string)

  datatype Toast = ErrorToast(text: string) | InfoToast(text: string) | SuccessToast(text: string)

  /** Why a call threw. */
  datatype Thrown = NoWallet | SendFailed(error: TxError)

  /** How the helper's promise settles. */
  datatype Outcome = Resolved(hash: string) | Threw(reason: Thrown)

  datatype Execution = Execution(state: State, outcome: Outcome, request: Option<Request>, toasts: seq<Toast>)

  const NoWalletMessage: string := "Embedded wallet not found."

  /** `error.message || "Unknown error"`. */
  function FailureText(e: TxError): (r: string)
    ensures e.message != "" ==> r == "\U{274C} Transaction failed: " + e.message
    ensures e.message == "" ==> r == "\U{274C} Transaction failed: Unknown error"
  {
    "\U{274C} Transaction failed: " + (if e.message != "" then e.message else "Unknown error")
  }

  /** The three state updates made just before sending. */
  function BeginSend(s: State): (p: State)
    ensures p.status == Pending && p.txError.None? && p.txHash.None?
    ensures FlagsOf(p).isLoading
    ensures p.functionName == s.functionName && p.isWithdrawSuccessful == s.isWithdrawSuccessful
  {
    s.(status := Pending, txError := None, txHash := None)
  }

  /** The updates made once `sendTransaction` settles. */
  function FinishSend(p: State, fnName: string, out: SendOutcome): (s: State)
    ensures p.txError.None? && p.txHash.None? ==> Settled(s)
    ensures out.Sent? ==> s.status == Success && s.txHash == Some(out.hash) && s.txError == p.txError
    ensures out.Rejected? ==> s.status == Failed && s.txError == Some(out.error) && s.txHash == p.txHash
    ensures s.isWithdrawSuccessful <==> p.isWithdrawSuccessful || (out.Sent? && fnName == WithdrawFunction)
    ensures s.functionName == p.functionName
  {
    match out
    case Sent(hash) =>
      p.(txHash := Some(hash), status := Success,
         isWithdrawSuccessful := p.isWithdrawSuccessful || fnName == WithdrawFunction)
    case Rejected(e) =>
      p.(txError := Some(e), status := Failed)
  }

  /**
   * `executeTransaction(to, abi, fnName, [])`: without an embedded wallet it
   * throws before touching the state; otherwise it sends a zero-value
   * sponsored transaction from the embedded address and records the outcome.
   */
  function Execute(s: State, to: Contract, fnName: string, wallets: Option<seq<Wallet>>, out: SendOutcome): (x: Execution)
    ensures !TruthyStr(EmbeddedAddress(wallets)) ==>
      x.state == s && x.outcome == Threw(NoWallet) && x.request.None?
      && x.toasts == [ErrorToast(NoWalletMessage)]
    ensures TruthyStr(EmbeddedAddress(wallets)) ==>
      && x.request == Some(Request(to, fnName, 0, true, EmbeddedAddress(wallets).value))
      && x.state == FinishSend(BeginSend(s), fnName, out)
      && Settled(x.state)
    ensures TruthyStr(EmbeddedAddress(wallets)) && out.Sent? ==>
      x.outcome == Resolved(out.hash) && x.state.status == Success && x.state.txHash == Some(out.hash)
      && |x.toasts| == 2 && x.toasts[1].SuccessToast?
    ensures TruthyStr(EmbeddedAddress(wallets)) && out.Rejected? ==>
      x.outcome == Threw(SendFailed(out.error)) && x.state.status == Failed && x.state.txError == Some(out.error)
      && x.state.txHash.None? && x.toasts == [ErrorToast(FailureText(out.error))]
    ensures x.request.Some? ==> x.request.value.value == 0 && x.request.value.sponsor
  {
    var embedded := EmbeddedAddress(wallets);
    if !TruthyStr(embedded) then
      Execution(s, Threw(NoWallet), None, [ErrorToast(NoWalletMessage)])
    else
      var req := Request(to, fnName, 0, true, embedded.value);
      var final := FinishSend(BeginSend(s), fnName, out);
      match out
      case Sent(hash) =>
        Execution(final, Resolved(hash), Some(req),
                  [InfoToast("Transaction sent, awaiting confirmation\U{2026}"),
                   SuccessToast("\U{2705} Gasless transaction submitted!")])
      case Rejected(e) =>
        Execution(final, Threw(SendFailed(e)), Some(req), [ErrorToast(FailureText(e))])
  }

  // ---------------------------------------------------------------------
  // Action helpers and the reset
  // ---------------------------------------------------------------------

  /** A helper: record the function name, then execute against the helper's contract. */
  function Invoke(s: State, a: Action, wallets: Option<seq<Wallet>>, out: SendOutcome): (x: Execution)
    ensures x.state.functionName == Some(FunctionName(a))
    ensures !TruthyStr(EmbeddedAddress(wallets)) ==>
      x.state == s.(functionName := Some(FunctionName(a))) && x.outcome == Threw(NoWallet)
    ensures x.request.Some? ==> x.request.value.to == Target(a) && x.request.value.functionName == FunctionName(a)
    ensures x.state.isWithdrawSuccessful <==>
      s.isWithdrawSuccessful || (a == EmergencyWithdraw && TruthyStr(EmbeddedAddress(wallets)) && out.Sent?)
  {
    Execute(s.(functionName := Some(FunctionName(a))), Target(a), FunctionName(a), wallets, out)
  }

  /** `resetWithdrawSuccess()`. */
  function ResetWithdrawSuccess(s: State): (r: State)
    ensures !r.isWithdrawSuccessful
    ensures r.(isWithdrawSuccessful := s.isWithdrawSuccessful) == s
  {
    s.(isWithdrawSuccessful := false)
  }

  /** What a user of the hook can do to it. */
  datatype Command = Call(action: Action, wallets: Option<seq<Wallet>>, out: SendOutcome) | Reset

  function Step(s: State, c: Command): State {
    match c
    case Call(a, w, out) => Invoke(s, a, w, out).state
    case Reset => ResetWithdrawSuccess(s)
  }

  /** The state after a sequence of commands, applied in order. */
  function Run(s: State, cs: seq<Command>): State
    decreases |cs|
  {
    if cs == [] then s else Step(Run(s, cs[..|cs| - 1]), cs[|cs| - 1])
  }

  /** A command that completes an emergency withdrawal. */
  predicate WithdrawSucceeds(c: Command) {
    c.Call? && c.action == EmergencyWithdraw && TruthyStr(EmbeddedAddress(c.wallets)) && c.out.Sent?
  }

  /** No reset among the commands after position `i` (all of them when `i` is -1). */
  predicate NoResetAfter(cs: seq<Command>, i: int) {
    forall j :: 0 <= j < |cs| && i < j ==> !cs[j].Reset?
  }

  /** Some successful withdrawal is not followed by a reset. */
  predicate UnresetWithdrawal(cs: seq<Command>) {
    exists i :: 0 <= i < |cs| && WithdrawSucceeds(cs[i]) && NoResetAfter(cs, i)
  }

  /**
   * The sticky flag: after any sequence of commands it is set exactly when
   * a successful emergency withdrawal happened after the last reset (or it
   * was already set and no reset came).
   */
  lemma {:induction false} WithdrawFlagHistory(s: State, cs: seq<Command>)
    ensures Run(s, cs).isWithdrawSuccessful <==>
      (s.isWithdrawSuccessful && NoResetAfter(cs, -1)) || UnresetWithdrawal(cs)
    decreases |cs|
  {
    if cs != [] {
      var init, last := cs[..|cs| - 1], cs[|cs| - 1];
      WithdrawFlagHistory(s, init);
      StepFlag(Run(s, init), last);
      if last.Reset? {
        EndsWithReset(cs);
      } else if WithdrawSucceeds(last) {
        assert NoResetAfter(cs, |cs| - 1);
      } else {
        EndsWithOther(cs);
      }
    }
  }

  /** The flag after one command. */
  lemma StepFlag(s: State, c: Command)
    ensures Step(s, c).isWithdrawSuccessful <==> !c.Reset? && (s.isWithdrawSuccessful || WithdrawSucceeds(c))
  {
  }

  lemma EndsWithReset(cs: seq<Command>)
    requires cs != [] && cs[|cs| - 1].Reset?
    ensures !NoResetAfter(cs, -1) && !UnresetWithdrawal(cs)
  {
    var n := |cs| - 1;
    forall i | 0 <= i < |cs| && WithdrawSucceeds(cs[i])
      ensures !NoResetAfter(cs, i)
    {
      assert i < n;
    }
  }

  lemma EndsWithOther(cs: seq<Command>)
    requires cs != [] && !cs[|cs| - 1].Reset? && !WithdrawSucceeds(cs[|cs| - 1])
    ensures NoResetAfter(cs, -1) <==> NoResetAfter(cs[..|cs| - 1], -1)
    ensures UnresetWithdrawal(cs) <==> UnresetWithdrawal(cs[..|cs| - 1])
  {
    var init, n := cs[..|cs| - 1], |cs| - 1;
    if NoResetAfter(init, -1) {
      forall j | 0 <= j < |cs| ensures !cs[j].Reset? {
        if j < n { assert cs[j] == init[j]; }
      }
    }
    if UnresetWithdrawal(init) {
      var i :| 0 <= i < |init| && WithdrawSucceeds(init[i]) && NoResetAfter(init, i);
      assert cs[i] == init[i];
      forall j | 0 <= j < |cs| && i < j ensures !cs[j].Reset? {
        if j < n { assert cs[j] == init[j]; }
      }
    }
    if UnresetWithdrawal(cs) {
      var i :| 0 <= i < |cs| && WithdrawSucceeds(cs[i]) && NoResetAfter(cs, i);
      assert i < n;
      assert init[i] == cs[i];
      forall j | 0 <= j < |init| && i < j ensures !init[j].Reset? {
        assert init[j] == cs[j];
      }
    }
  }

  /** One step can raise the flag only by a successful emergency withdrawal. */
  lemma FlagRaisedOnlyByWithdraw(s: State, c: Command)
    requires !s.isWithdrawSuccessful && Step(s, c).isWithdrawSuccessful
    ensures WithdrawSucceeds(c)
  {
  }

  /** One step can lower the flag only by the explicit reset. */
  lemma FlagLoweredOnlyByReset(s: State, c: Command)
    requires s.isWithdrawSuccessful && !Step(s, c).isWithdrawSuccessful
    ensures c.Reset?
  {
  }

  /**
   * Every state reachable from the initial one is settled: never left
   * pending, with a hash exactly after a success and an error exactly after
   * a failure.
   */
  lemma {:induction false} ReachableSettled(cs: seq<Command>)
    ensures Settled(Run(Initial, cs))
    decreases |cs|
  {
    if cs != [] {
      ReachableSettled(cs[..|cs| - 1]);
    }
  }

  // ---------------------------------------------------------------------
  // Overlapping sends
  // ---------------------------------------------------------------------

  /**
   * `executeTransaction` is asynchronous, and nothing stops a second helper
   * from starting while an earlier send is still in flight. Here a call is
   * split into its start (the helper runs up to `await sendTransaction`)
   * and its settlement, and the hook keeps the function names of the sends
   * still in flight, oldest first.
   */
  datatype Hook = Hook(state: State, inFlight: seq<string>)

  /** A helper starts; a send settles (by its position among those in flight); or the flag is reset. */
  datatype Event = Start(action: Action, wallets: Option<seq<Wallet>>) | Settle(index: nat, out: SendOutcome) | ResetFlag

  /** A helper runs up to its `await`: without a wallet it only names the function and throws. */
  function StartCall(h: Hook, a: Action, wallets: Option<seq<Wallet>>): (h': Hook)
    ensures h'.state.functionName == Some(FunctionName(a))
    ensures !TruthyStr(EmbeddedAddress(wallets)) ==>
      h'.inFlight == h.inFlight && h'.state == h.state.(functionName := Some(FunctionName(a)))
    ensures TruthyStr(EmbeddedAddress(wallets)) ==>
      h'.inFlight == h.inFlight + [FunctionName(a)] && h'.state.status == Pending
      && h'.state.txHash.None? && h'.state.txError.None?
      && h'.state.isWithdrawSuccessful == h.state.isWithdrawSuccessful
  {
    var named := h.state.(functionName := Some(FunctionName(a)));
    if TruthyStr(EmbeddedAddress(wallets)) then Hook(BeginSend(named), h.inFlight + [FunctionName(a)])
    else Hook(named, h.inFlight)
  }

  /** The `k`-th send in flight settles; an index past the end changes nothing. */
  function SettleCall(h: Hook, k: nat, out: SendOutcome): (h': Hook)
    ensures k >= |h.inFlight| ==> h' == h
    ensures k < |h.inFlight| ==>
      && h'.inFlight == h.inFlight[..k] + h.inFlight[k + 1..]
      && h'.state == FinishSend(h.state, h.inFlight[k], out)
  {
    if k < |h.inFlight| then Hook(FinishSend(h.state, h.inFlight[k], out), h.inFlight[..k] + h.inFlight[k + 1..])
    else h
  }

  /**
   * What survives overlapping sends: a success always holds a hash and a
   * failure always holds an error, idle means nothing was ever sent, and
   * the status is pending only while some send is in flight.
   */
  predicate Consistent(h: Hook) {
    && (h.state.status == Success ==> h.state.txHash.Some?)
    && (h.state.status == Failed ==> h.state.txError.Some?)
    && (h.state.status == Idle ==> h.state.txHash.None? && h.state.txError.None?)
    && (h.state.status == Pending ==> |h.inFlight| > 0)
  }

  /**
   * One event. Even with overlap, it keeps `Consistent`, raises the flag only
   * by settling an emergency withdrawal successfully, and lowers it only if
   * it is the reset.
   */
  function HookStep(h: Hook, e: Event): (h': Hook)
    ensures Consistent(h) ==> Consistent(h')
    ensures !h.state.isWithdrawSuccessful && h'.state.isWithdrawSuccessful ==>
      e.Settle? && e.index < |h.inFlight| && h.inFlight[e.index] == WithdrawFunction && e.out.Sent?
    ensures h.state.isWithdrawSuccessful && !h'.state.isWithdrawSuccessful ==> e.ResetFlag?
  {
    match e
    case Start(a, w) => StartCall(h, a, w)
    case Settle(k, out) => SettleCall(h, k, out)
    case ResetFlag => h.(state := ResetWithdrawSuccess(h.state))
  }

  function HookRun(h: Hook, es: seq<Event>): Hook
    decreases |es|
  {
    if es == [] then h else HookStep(HookRun(h, es[..|es| - 1]), es[|es| - 1])
  }

  /** Every hook state reachable from the initial one, with any overlap, is `Consistent`. */
  lemma {:induction false} ReachableConsistent(es: seq<Event>)
    ensures Consistent(HookRun(Hook(Initial, []), es))
    decreases |es|
  {
    if es != [] {
      ReachableConsistent(es[..|es| - 1]);
    }
  }

  /**
   * Overlap breaks the stronger promise: start two helpers, let the first
   * succeed and the second fail, and the hook reports an error while still
   * holding the first call's hash.
   */
  lemma OverlapLeavesStaleHash()
    ensures var w := Some([Wallet(Some("0xE"))]);
      var h := HookRun(Hook(Initial, []),
        [Start(PerformStart, w), Start(PerformClose, w), Settle(0, Sent("0xA")), Settle(0, Rejected(TxError("denied")))]);
      && h.state.status == Failed && h.state.txHash == Some("0xA") && !Settled(h.state) && h.inFlight == []
  {
    var w := Some([Wallet(Some("0xE"))]);
    var h0 := Hook(Initial, []);
    var h1 := StartCall(h0, PerformStart, w);
    var h2 := StartCall(h1, PerformClose, w);
    var h3 := SettleCall(h2, 0, Sent("0xA"));
    var h4 := SettleCall(h3, 0, Rejected(TxError("denied")));
    var es := [Start(PerformStart, w), Start(PerformClose, w), Settle(0, Sent("0xA")), Settle(0, Rejected(TxError("denied")))];
    assert es[..1] == [Start(PerformStart, w)];
    assert es[..2] == es[..1] + [Start(PerformClose, w)];
    assert es[..3] == es[..2] + [Settle(0, Sent("0xA"))];
    assert es[..2][..1] == es[..1];
    assert es[..3][..2] == es[..2];
    assert HookRun(h0, es[..1]) == h1;
    assert HookRun(h0, es[..2]) == h2;
    assert h2.inFlight == [FunctionName(PerformStart), FunctionName(PerformClose)];
    assert HookRun(h0, es[..3]) == h3;
    assert h3.inFlight == [FunctionName(PerformClose)];
    assert HookRun(h0, es) == h4;
  }


}

=== FILE: participants_modal.dfy ===
/**
 * The "All Participants" modal (`ParticipantsModal.tsx`): the loading,
 * error and empty lines, and one row per participant with a shortened
 * address and "1 Ticket".
 */
module ParticipantsModal {
  import opened Js
  import ReadLottery

  const UnknownAddress: string := "Unknown Address"

  /** `p.slice(0, 6) + "..." + p.slice(-4)` for a non-empty address, "Unknown Address" otherwise. */
  function ShortAddress(participant: string): (r: string)
    ensures participant == "" ==> r == UnknownAddress
    ensures participant != "" ==>
      && |r| == Min(6, |participant|) + 3 + Min(4, |participant|)
      && r[..Min(6, |participant|)] == participant[..Min(6, |participant|)]
      && r[Min(6, |participant|)..Min(6, |participant|) + 3] == "..."
      && r[|r| - Min(4, |participant|)..] == participant[|participant| - Min(4, |participant|)..]
  {
    if participant != "" then Abbreviate(participant, 6, 4) else UnknownAddress
  }

  /** A shortened address is never mistaken for the unknown marker. */
  lemma ShortAddressDistinct(participant: string)
    requires participant != ""
    ensures ShortAddress(participant) != UnknownAddress
  {
    var r := ShortAddress(participant);
    var h := Min(6, |participant|);
    assert r[h..h + 3] == "...";
  }

  datatype Row = Row(address: string, tickets: string)

  /** What the modal body shows. */
  datatype Body = Body(loadingLine: bool, errorLine: bool, emptyLine: bool, rows: seq<Row>)

  function Render(participants: Option<seq<string>>, isLoading: bool, isError: bool): (b: Body)
    ensures b.loadingLine <==> isLoading
    ensures b.errorLine <==> isError
    ensures b.emptyLine <==> !isLoading && (participants.None? || participants.value == [])
    ensures participants.None? ==> b.rows == []
    ensures participants.Some? ==> |b.rows| == |participants.value|
    ensures participants.Some? ==> forall i :: 0 <= i < |b.rows| ==>
      b.rows[i] == Row(ShortAddress(participants.value[i]), "1 Ticket")
  {
    var rows :=
      if participants.None? then []
      else seq(|participants.value|, i requires 0 <= i < |participants.value| =>
             Row(ShortAddress(participants.value[i]), "1 Ticket"));
    Body(isLoading, isError,
         !isLoading && !(participants.Some? && |participants.value| > 0),
         rows)
  }

  /** The modal as fed by `useParticipants`. */
  function FromHook(p: ReadLottery.Participants): Body {
    Render(p.data, p.isLoading, p.isError)
  }

  /**
   * Fed by `useParticipants`, the "Unknown Address" branch never renders:
   * the hook has already dropped every falsy entry. Every row shows the
   * dots, and the rows follow the order of the successful reads.
   */
  lemma NoUnknownFromHook(isEntryCountLoading: bool, batch: ReadLottery.BatchRead)
    ensures var b := FromHook(ReadLottery.UseParticipants(isEntryCountLoading, batch));
      forall i :: 0 <= i < |b.rows| ==> b.rows[i].address != UnknownAddress
  {
    var p := ReadLottery.UseParticipants(isEntryCountLoading, batch);
    var b := FromHook(p);
    forall i | 0 <= i < |b.rows|
      ensures b.rows[i].address != UnknownAddress
    {
      ShortAddressDistinct(p.data.value[i]);
    }
  }

  /**
   * While the entry count is loading the modal shows its loading line and
   * never claims there are no participants.
   */
  lemma LoadingHidesEmpty(isEntryCountLoading: bool, batch: ReadLottery.BatchRead)
    requires isEntryCountLoading
    ensures FromHook(ReadLottery.UseParticipants(isEntryCountLoading, batch)).loadingLine
    ensures !FromHook(ReadLottery.UseParticipants(isEntryCountLoading, batch)).emptyLine
  {
  }
}

=== FILE: read_lottery.dfy ===
/**
 * The read hooks of `useReadLottery.ts`: the query each hook configures
 * (arguments and enable flag), the participant list `useParticipants`
 * assembles from one `entries(i)` read per entry, and the latch that lets an
 * error toast fire at most once per hook instance. The reads themselves
 * are done by the wallet library; here their answers are inputs.
 */
module ReadLottery {
  import opened Js

  // ---------------------------------------------------------------------
  // Query configuration
  // ---------------------------------------------------------------------

  /** An argument of a contract read. */
  datatype Arg = AddressArg(address: string) | UintArg(n: nat)

  /** What a hook hands to `useReadContract`: function, arguments (or undefined), enable flag. */
  datatype Query = Query(functionName: string, args: Option<seq<Arg>>, enabled: bool)

  /** The reads that take no argument and are always enabled. */
  const PlainReads: set<string> :=
    {"roundActive", "roundId", "roundEndTimestamp", "entryCount", "winner",
     "prizeAmountRedeemed", "prizeClaimed", "owner"}

  function PlainQuery(functionName: string): (q: Query)
    requires functionName in PlainReads
    ensures q.enabled && q.args.None? && q.functionName == functionName
  {
    Query(functionName, None, true)
  }

  /**
   * A read keyed by the user's address (`getUserTickets`, `expectedRefund`):
   * the address is the one argument when given, and the query runs only then.
   */
  function AddressQuery(functionName: string, user: Option<string>): (q: Query)
    requires functionName in {"getUserTickets", "expectedRefund"}
    ensures q.functionName == functionName
    ensures q.enabled <==> TruthyStr(user)
    ensures q.args.Some? <==> TruthyStr(user)
    ensures q.args.Some? ==> q.args.value == [AddressArg(user.value)]
  {
    Query(functionName, if TruthyStr(user) then Some([AddressArg(user.value)]) else None, TruthyStr(user))
  }

  /** `getTicketById(ticketId)`: the argument is always passed, the read runs only for a non-zero id. */
  function TicketByIdQuery(ticketId: nat): (q: Query)
    ensures q.functionName == "getTicketById"
    ensures q.args == Some([UintArg(ticketId)])
    ensures q.enabled <==> ticketId != 0
  {
    Query("getTicketById", Some([UintArg(ticketId)]), ticketId != 0)
  }

  // ---------------------------------------------------------------------
  // useParticipants
  // ---------------------------------------------------------------------

  /** One entry of the batch handed to `useReadContracts`: a function and its arguments. */
  datatype Call = Call(functionName: string, args: seq<Arg>)

  /** The read of `entries(i)`. */
  function EntriesCall(i: nat): Call {
    Call("entries", [UintArg(i)])
  }

  /**
   * The call list: `Array.from({ length: Number(entryCount) }, ...)` when
   * `entryCount` is truthy, the empty list otherwise.
   */
  method ParticipantCalls(entryCount: Option<nat>) returns (calls: seq<Call>)
    ensures !TruthyInt(entryCount) ==> calls == []
    ensures TruthyInt(entryCount) ==> |calls| == entryCount.value
    ensures forall i :: 0 <= i < |calls| ==> calls[i] == EntriesCall(i)
  {
    calls := [];
    if TruthyInt(entryCount) {
      var n := entryCount.value;
      var i := 0;
      while i < n
        invariant 0 <= i <= n
        invariant |calls| == i
        invariant forall k :: 0 <= k < i ==> calls[k] == EntriesCall(k)
      {
        calls := calls + [EntriesCall(i)];
        i := i + 1;
      }
    }
  }

  /** The batch read runs once the entry count has loaded and is positive. */
  predicate ParticipantsEnabled(isEntryCountLoading: bool, entryCount: Option<nat>) {
    !isEntryCountLoading && entryCount.Some? && entryCount.value > 0
  }

  /**
   * The batch read is enabled exactly when the count has loaded and is
   * truthy; a loaded count of 0n or undefined leaves it disabled.
   */
  lemma EnabledIffCalls(isEntryCountLoading: bool, entryCount: Option<nat>)
    ensures ParticipantsEnabled(isEntryCountLoading, entryCount) <==>
      !isEntryCountLoading && TruthyInt(entryCount)
  {
  }

  /**
   * `.map(result => result.result).filter(Boolean)` on the per-call results:
   * failed reads (undefined) and empty addresses drop out, the rest keep
   * their order.
   */
  function KeepTruthy(results: seq<Option<string>>): (r: seq<string>)
    ensures |r| <= |results|
    ensures forall k :: 0 <= k < |r| ==> r[k] != ""
    ensures forall x :: x in r <==> x != "" && Some(x) in results
    decreases |results|
  {
    if results == [] then []
    else
      var rest := KeepTruthy(results[1..]);
      assert forall x :: Some(x) in results <==> results[0] == Some(x) || Some(x) in results[1..];
      if TruthyStr(results[0]) then [results[0].value] + rest else rest
  }

  /** Filtering splits over concatenation, so it keeps the relative order of what it keeps. */
  lemma {:induction false} KeepTruthyAppend(a: seq<Option<string>>, b: seq<Option<string>>)
    ensures KeepTruthy(a + b) == KeepTruthy(a) + KeepTruthy(b)
    decreases |a|
  {
    if a == [] {
      assert a + b == b;
    } else {
      assert (a + b)[1..] == a[1..] + b;
      assert (a + b)[0] == a[0];
      KeepTruthyAppend(a[1..], b);
    }
  }

  /** When every read succeeded with a non-empty address, nothing is dropped. */
  lemma {:induction false} KeepTruthyAllPresent(results: seq<Option<string>>)
    requires forall k :: 0 <= k < |results| ==> TruthyStr(results[k])
    ensures |KeepTruthy(results)| == |results|
    ensures forall k :: 0 <= k < |results| ==> Some(KeepTruthy(results)[k]) == results[k]
    decreases |results|
  {
    if results != [] {
      KeepTruthyAllPresent(results[1..]);
    }
  }

  /** The batch read's state as the library reports it. */
  datatype BatchRead = BatchRead(data: Option<seq<Option<string>>>, isLoading: bool, isError: bool)

  /** What `useParticipants` returns. */
  datatype Participants = Participants(data: Option<seq<string>>, isLoading: bool, isError: bool)

  function UseParticipants(isEntryCountLoading: bool, batch: BatchRead): (r: Participants)
    ensures r.data.Some? <==> batch.data.Some?
    ensures r.data.Some? ==> r.data.value == KeepTruthy(batch.data.value)
    ensures r.isLoading <==> batch.isLoading || isEntryCountLoading
    ensures r.isError == batch.isError
  {
    Participants(
      if batch.data.Some? then Some(KeepTruthy(batch.data.value)) else None,
      batch.isLoading || isEntryCountLoading,
      batch.isError)
  }

  /**
   * With one answer per call, the participant list is never longer than
   * the entry count and holds no empty address.
   */
  lemma ParticipantsBounded(entryCount: nat, isEntryCountLoading: bool, batch: BatchRead)
    requires batch.data.Some? && |batch.data.value| == entryCount
    ensures |UseParticipants(isEntryCountLoading, batch).data.value| <= entryCount
    ensures forall k :: 0 <= k < |UseParticipants(isEntryCountLoading, batch).data.value| ==>
      UseParticipants(isEntryCountLoading, batch).data.value[k] != ""
  {
  }

  // ---------------------------------------------------------------------
  // The toast-once latch
  // ---------------------------------------------------------------------

  /** `toastShownRef.current`: whether the error toast and the success mark have been recorded. */
  datatype Latch = Latch(errorShown: bool, successShown: bool)

  const FreshLatch: Latch := Latch(false, false)

  /** One run of the effect sees the query's current error flag and whether data is defined. */
  datatype Observation = Observation(isError: bool, hasData: bool)

  /** The latch after one effect run, and whether that run fired the error toast. */
  datatype LatchStep = LatchStep(latch: Latch, toast: bool)

  function Observe(l: Latch, o: Observation): (r: LatchStep)
    ensures r.toast <==> o.isError && !l.errorShown
    ensures r.latch.errorShown <==> l.errorShown || o.isError
    ensures r.latch.successShown <==> l.successShown || o.hasData
  {
    var toast := o.isError && !l.errorShown;
    LatchStep(
      Latch(l.errorShown || toast, l.successShown || o.hasData),
      toast)
  }

  /** The latch after a sequence of effect runs. */
  function Replay(l: Latch, os: seq<Observation>): Latch
    decreases |os|
  {
    if os == [] then l else Replay(Observe(l, os[0]).latch, os[1..])
  }

  /** How many error toasts a sequence of effect runs fires. */
  function ToastCount(l: Latch, os: seq<Observation>): nat
    decreases |os|
  {
    if os == [] then 0
    else (if Observe(l, os[0]).toast then 1 else 0) + ToastCount(Observe(l, os[0]).latch, os[1..])
  }

  predicate SomeError(os: seq<Observation>) {
    exists k :: 0 <= k < |os| && os[k].isError
  }

  /**
   * Over any sequence of effect runs the error toast fires at most once,
   * never again once it has fired, and exactly once from a fresh latch if
   * any run saw an error.
   */
  lemma {:induction false} ToastAtMostOnce(l: Latch, os: seq<Observation>)
    ensures ToastCount(l, os) <= 1
    ensures l.errorShown ==> ToastCount(l, os) == 0
    ensures !l.errorShown ==> (ToastCount(l, os) == 1 <==> SomeError(os))
    decreases |os|
  {
    if os != [] {
      var next := Observe(l, os[0]).latch;
      ToastAtMostOnce(next, os[1..]);
      if !l.errorShown && !os[0].isError {
        assert SomeError(os) <==> SomeError(os[1..]) by {
          if SomeError(os) {
            var k :| 0 <= k < |os| && os[k].isError;
            assert os[1..][k - 1] == os[k];
          }
          if SomeError(os[1..]) {
            var k :| 0 <= k < |os[1..]| && os[1..][k].isError;
            assert os[k + 1] == os[1..][k];
          }
        }
      }
    }
  }

  /** The flags only ever go from false to true: the latch never resets. */
  lemma {:induction false} LatchNeverResets(l: Latch, os: seq<Observation>)
    ensures l.errorShown ==> Replay(l, os).errorShown
    ensures l.successShown ==> Replay(l, os).successShown
    ensures SomeError(os) ==> Replay(l, os).errorShown
    decreases |os|
  {
    if os != [] {
      LatchNeverResets(Observe(l, os[0]).latch, os[1..]);
      if SomeError(os) && !os[0].isError {
        var k :| 0 <= k < |os| && os[k].isError;
        assert os[1..][k - 1] == os[k];
      }
    }
  }
}

=== FILE: right_panel.dfy ===
/**
 * The right-hand panel of the home page (`RightPanel.tsx`): the wallet
 * address line and the "My Tickets" list, where each ticket shows either an
 * active "Redeem Now" button or a disabled button with the time left until
 * its round ends.
 */
module RightPanel {
  import opened Js
  import opened Arith
  import opened Time

  const MsPerMinute: nat := 60_000
  const MsPerHour: nat := 3_600_000
  const MsPerDay: nat := 86_400_000

  const RedeemNow: string := "Redeem Now"

  /** A ticket as `getUserTickets` returns it. */
  datatype Ticket = Ticket(ticketId: nat, roundEndTimestamp: nat, principal: nat, owner: string)

  /** Milliseconds from `now` until the ticket's round ends; zero or less once it has ended. */
  function TicketDiff(t: Ticket, now: int): int {
    MsUntil(t.roundEndTimestamp, now)
  }

  predicate Redeemable(t: Ticket, now: int) {
    TicketDiff(t, now) <= 0
  }

  // ---------------------------------------------------------------------
  // Time left
  // ---------------------------------------------------------------------

  /** Whole days, hours, minutes and seconds left. */
  datatype TimeLeft = TimeLeft(days: nat, hours: nat, minutes: nat, seconds: nat)

  function TimeLeftSeconds(t: TimeLeft): nat {
    t.days * 86400 + t.hours * 3600 + t.minutes * 60 + t.seconds
  }

  /**
   * The decomposition of a positive millisecond difference. The source
   * divides as floating point and floors after `% 24` / `% 60`; for a
   * non-negative integer `diff`, `floor((diff / k) % n)` is
   * `(diff div k) mod n`, which is what is written here.
   */
  function SplitDiff(diff: nat): (t: TimeLeft)
    ensures t.hours < 24 && t.minutes < 60 && t.seconds < 60
    ensures TimeLeftSeconds(t) == diff / MsPerSecond
  {
    var t := TimeLeft(diff / MsPerDay, (diff / MsPerHour) % 24, (diff / MsPerMinute) % 60, (diff / MsPerSecond) % 60);
    SplitDiffSum(diff);
    t
  }

  lemma SplitDiffSum(diff: nat)
    ensures (diff / MsPerDay) * 86400 + ((diff / MsPerHour) % 24) * 3600
            + ((diff / MsPerMinute) % 60) * 60 + (diff / MsPerSecond) % 60 == diff / MsPerSecond
  {
    var s := diff / MsPerSecond;
    DivDiv(diff, MsPerSecond, 86400);
    DivDiv(diff, MsPerSecond, 3600);
    DivDiv(diff, MsPerSecond, 60);
    assert diff / MsPerDay == s / 86400;
    assert diff / MsPerHour == s / 3600;
    assert diff / MsPerMinute == s / 60;
    var m := s / 60;
    var h := s / 3600;
    DivDiv(s, 60, 60);
    assert h == m / 60;
    DivDiv(s, 3600, 24);
    assert s / 86400 == h / 24;
    assert s == m * 60 + s % 60;
    assert m == h * 60 + m % 60;
    assert h == (h / 24) * 24 + h % 24;
  }

  /**
   * The decomposition is the only one with hours below 24 and minutes and
   * seconds below 60 that adds up to the whole seconds left.
   */
  lemma {:induction false} SplitDiffUnique(diff: nat, t: TimeLeft)
    requires t.hours < 24 && t.minutes < 60 && t.seconds < 60
    requires TimeLeftSeconds(t) == diff / MsPerSecond
    ensures t == SplitDiff(diff)
  {
    var u := SplitDiff(diff);
    var a := t.hours * 3600 + t.minutes * 60 + t.seconds;
    var b := u.hours * 3600 + u.minutes * 60 + u.seconds;
    QuotientUnique(t.days, a, u.days, b, 86400);
    QuotientUnique(t.hours, t.minutes * 60 + t.seconds, u.hours, u.minutes * 60 + u.seconds, 3600);
    QuotientUnique(t.minutes, t.seconds, u.minutes, u.seconds, 60);
  }

  /**
   * `"{d}d {h}h"` once at least a day is left, `"{h}h {m}m {s}s"` below
   * that; each number in plain decimal.
   */
  function TimeLeftText(t: TimeLeft): (r: string)
    ensures |r| >= 4
    ensures t.days >= 1 ==> 'd' in r && r[|r| - 1] == 'h'
    ensures t.days == 0 ==> 'd' !in r && r[|r| - 1] == 's'
    ensures 'm' in r <==> t.days == 0
  {
    if t.days >= 1 then
      var d, h := NatToString(t.days), NatToString(t.hours);
      NoLetter('m', d);
      NoLetter('m', h);
      d + "d " + h + "h"
    else
      var h, m, s := NatToString(t.hours), NatToString(t.minutes), NatToString(t.seconds);
      NoLetter('d', h);
      NoLetter('d', m);
      NoLetter('d', s);
      h + "h " + m + "m " + s + "s"
  }

  /** A digit string holds no letter. */
  lemma NoLetter(c: char, s: string)
    requires AllDigits(s) && !IsDigit(c)
    ensures c !in s
  {
  }

  /** The fields a time-left text shows: days and hours, or hours, minutes and seconds. */
  datatype Shown = DaysHours(days: nat, hours: nat) | HoursMinutesSeconds(hours: nat, minutes: nat, seconds: nat)

  function ShownOf(t: TimeLeft): Shown {
    if t.days >= 1 then DaysHours(t.days, t.hours) else HoursMinutesSeconds(t.hours, t.minutes, t.seconds)
  }

  /** The position of the first `c` in `s`. */
  function IndexOf(s: string, c: char): (i: nat)
    requires c in s
    ensures i < |s| && s[i] == c
    ensures forall k :: 0 <= k < i ==> s[k] != c
  {
    if s[0] == c then 0
    else
      assert c in s[1..] by { var k :| 0 <= k < |s| && s[k] == c; assert s[1..][k - 1] == c; }
      var j := IndexOf(s[1..], c);
      assert forall k :: 0 < k <= j ==> s[k] == s[1..][k - 1];
      j + 1
  }

  /** `s.split(" ")`. */
  function Words(s: string): (ws: seq<string>)
    ensures |ws| >= 1
    decreases |s|
  {
    if ' ' !in s then [s]
    else
      var i := IndexOf(s, ' ');
      [s[..i]] + Words(s[i + 1..])
  }

  /** Splitting after a word that holds no blank peels that word off. */
  lemma WordsCons(a: string, b: string)
    requires ' ' !in a
    ensures Words(a + " " + b) == [a] + Words(b)
  {
    var s := a + " " + b;
    assert s[|a|] == ' ';
    assert forall k :: 0 <= k < |a| ==> s[k] == a[k];
    var i := IndexOf(s, ' ');
    assert i == |a|;
    assert s[..i] == a;
    assert s[i + 1..] == b;
  }

  /** A number followed by its unit letter, as in "12h". */
  function ParseUnit(w: string, unit: char): Option<nat> {
    if |w| >= 2 && w[|w| - 1] == unit && AllDigits(w[..|w| - 1]) && (|w| == 2 || w[0] != '0')
    then Some(DigitsValue(w[..|w| - 1]))
    else None
  }

  /** Reads a time-left text back into the fields it shows; `None` for any other shape. */
  function ParseTimeLeft(r: string): Option<Shown> {
    var ws := Words(r);
    if |ws| == 2 then
      match (ParseUnit(ws[0], 'd'), ParseUnit(ws[1], 'h'))
      case (Some(d), Some(h)) => Some(DaysHours(d, h))
      case _ => None
    else if |ws| == 3 then
      match (ParseUnit(ws[0], 'h'), ParseUnit(ws[1], 'm'), ParseUnit(ws[2], 's'))
      case (Some(h), Some(m), Some(sec)) => Some(HoursMinutesSeconds(h, m, sec))
      case _ => None
    else None
  }

  /** A number with its unit letter reads back as the number. */
  lemma UnitRoundTrip(n: nat, unit: char)
    requires !IsDigit(unit) && unit != ' '
    ensures ParseUnit(NatToString(n) + [unit], unit) == Some(n)
    ensures ' ' !in NatToString(n) + [unit]
    ensures Words(NatToString(n) + [unit]) == [NatToString(n) + [unit]]
  {
    var d := NatToString(n);
    var w := d + [unit];
    assert w[..|w| - 1] == d;
    NoLetter(' ', d);
  }

  /**
   * The text reads back as exactly the fields it is meant to show: days and
   * hours from one day up, hours, minutes and seconds below that.
   */
  lemma TimeLeftTextRoundTrip(t: TimeLeft)
    ensures ParseTimeLeft(TimeLeftText(t)) == Some(ShownOf(t))
  {
    if t.days >= 1 {
      DaysHoursRoundTrip(t.days, t.hours);
    } else {
      HoursMinutesSecondsRoundTrip(t.hours, t.minutes, t.seconds);
    }
  }

  lemma DaysHoursRoundTrip(days: nat, hours: nat)
    requires days >= 1
    ensures ParseTimeLeft(TimeLeftText(TimeLeft(days, hours, 0, 0))) == Some(DaysHours(days, hours))
  {
    var d, h := NatToString(days) + "d", NatToString(hours) + "h";
    UnitRoundTrip(days, 'd');
    UnitRoundTrip(hours, 'h');
    WordsCons(d, h);
    DaysHoursText(days, hours);
    ParseTwoWords(d + " " + h, d, h, days, hours);
  }

  lemma DaysHoursText(days: nat, hours: nat)
    requires days >= 1
    ensures TimeLeftText(TimeLeft(days, hours, 0, 0)) == NatToString(days) + "d" + " " + (NatToString(hours) + "h")
  {
  }

  lemma ParseTwoWords(r: string, d: string, h: string, days: nat, hours: nat)
    requires Words(r) == [d] + [h]
    requires ParseUnit(d, 'd') == Some(days) && ParseUnit(h, 'h') == Some(hours)
    ensures ParseTimeLeft(r) == Some(DaysHours(days, hours))
  {
  }

  lemma HoursMinutesSecondsRoundTrip(hours: nat, minutes: nat, seconds: nat)
    ensures ParseTimeLeft(TimeLeftText(TimeLeft(0, hours, minutes, seconds)))
      == Some(HoursMinutesSeconds(hours, minutes, seconds))
  {
    var h, m, sec := NatToString(hours) + "h", NatToString(minutes) + "m", NatToString(seconds) + "s";
    UnitRoundTrip(hours, 'h');
    UnitRoundTrip(minutes, 'm');
    UnitRoundTrip(seconds, 's');
    WordsCons(m, sec);
    WordsCons(h, m + " " + sec);
    HoursMinutesSecondsText(hours, minutes, seconds);
    ParseThreeWords(h + " " + (m + " " + sec), h, m, sec, hours, minutes, seconds);
  }

  lemma HoursMinutesSecondsText(hours: nat, minutes: nat, seconds: nat)
    ensures TimeLeftText(TimeLeft(0, hours, minutes, seconds))
      == NatToString(hours) + "h" + " " + (NatToString(minutes) + "m" + " " + (NatToString(seconds) + "s"))
  {
    RegroupThree(NatToString(hours), NatToString(minutes), NatToString(seconds));
  }

  lemma RegroupThree(h: string, m: string, s: string)
    ensures h + "h " + m + "m " + s + "s" == h + "h" + " " + (m + "m" + " " + (s + "s"))
  {
    assert "h " == "h" + " " && "m " == "m" + " ";
  }

  lemma ParseThreeWords(r: string, h: string, m: string, sec: string, hours: nat, minutes: nat, seconds: nat)
    requires Words(r) == [h] + ([m] + [sec])
    requires ParseUnit(h, 'h') == Some(hours) && ParseUnit(m, 'm') == Some(minutes)
    requires ParseUnit(sec, 's') == Some(seconds)
    ensures ParseTimeLeft(r) == Some(HoursMinutesSeconds(hours, minutes, seconds))
  {
  }

  /**
   * The displayed units truncate, never round up: at least a day left shows
   * whole days and hours not exceeding the difference, less than a day
   * shows whole seconds not exceeding it, and in both cases the next unit
   * up would exceed it.
   */
  lemma TruncatesTowardZero(diff: nat)
    ensures var t := SplitDiff(diff);
      && t.days * MsPerDay + t.hours * MsPerHour <= diff < t.days * MsPerDay + (t.hours + 1) * MsPerHour
      && (t.days == 0 ==>
            TimeLeftSeconds(t) * MsPerSecond <= diff < (TimeLeftSeconds(t) + 1) * MsPerSecond)
  {
    var t := SplitDiff(diff);
    var s := diff / MsPerSecond;
    assert s * 1000 <= diff < s * 1000 + 1000;
    var rest := t.minutes * 60 + t.seconds;
    assert 0 <= rest < 3600;
    assert s == t.days * 86400 + t.hours * 3600 + rest;
    assert diff >= (t.days * 86400 + t.hours * 3600) * 1000;
    assert diff < (t.days * 86400 + t.hours * 3600 + 3600) * 1000;
  }

  // ---------------------------------------------------------------------
  // One ticket row
  // ---------------------------------------------------------------------

  /** The string the source keeps in `remaining`. */
  function Remaining(t: Ticket, now: int): (r: string)
    ensures Redeemable(t, now) ==> r == RedeemNow
    ensures !Redeemable(t, now) ==> r == TimeLeftText(SplitDiff(TicketDiff(t, now)))
    ensures r == RedeemNow <==> Redeemable(t, now)
  {
    if Redeemable(t, now) then RedeemNow
    else
      var r := TimeLeftText(SplitDiff(TicketDiff(t, now)));
      // "Redeem Now" ends in 'w'; the time-left text ends in 'h' or 's'.
      assert r[|r| - 1] != 'w';
      r
  }

  /** The button at the end of a ticket row. */
  datatype TicketButton = TicketButton(enabled: bool, text: string, opensRefundModal: bool)

  function TicketRow(t: Ticket, now: int): (b: TicketButton)
    ensures b.enabled <==> TicketDiff(t, now) <= 0
    ensures b.enabled <==> b.text == RedeemNow
    ensures b.opensRefundModal <==> b.enabled
    ensures !b.enabled ==> b.text == Remaining(t, now)
  {
    if Redeemable(t, now) then TicketButton(true, RedeemNow, true)
    else TicketButton(false, Remaining(t, now), false)
  }

  /** A round that has ended stays redeemable at every later instant. */
  lemma RedeemableStays(t: Ticket, now1: int, now2: int)
    requires now1 <= now2
    requires Redeemable(t, now1)
    ensures Redeemable(t, now2)
    ensures TicketRow(t, now2).enabled
  {
  }

  /**
   * A disabled row's button reads back as the whole days and hours, or the
   * whole hours, minutes and seconds, left until the round ends.
   */
  lemma PendingRowReadsBack(t: Ticket, now: int)
    requires !Redeemable(t, now)
    ensures ParseTimeLeft(TicketRow(t, now).text) == Some(ShownOf(SplitDiff(TicketDiff(t, now))))
  {
    TimeLeftTextRoundTrip(SplitDiff(TicketDiff(t, now)));
  }

  // ---------------------------------------------------------------------
  // The wallet address line and the tickets section
  // ---------------------------------------------------------------------

  /** `address.slice(0, 8) + "..." + address.slice(-4)`, or "N/A" without an address. */
  function AddressLine(address: Option<string>): (r: string)
    ensures !TruthyStr(address) ==> r == "N/A"
    ensures TruthyStr(address) ==>
      var a := address.value;
      && |r| == Min(8, |a|) + 3 + Min(4, |a|)
      && r[..Min(8, |a|)] == a[..Min(8, |a|)]
      && r[Min(8, |a|)..Min(8, |a|) + 3] == "..."
      && r[|r| - Min(4, |a|)..] == a[|a| - Min(4, |a|)..]
  {
    if TruthyStr(address) then Abbreviate(address.value, 8, 4) else "N/A"
  }

  /** A full `0x` address of 42 characters shows as 15: "0x" and six hex digits, dots, four hex digits. */
  lemma FullAddressLine(a: string)
    requires |a| == 42
    ensures |AddressLine(Some(a))| == 15
    ensures AddressLine(Some(a)) == a[..8] + "..." + a[38..]
  {
  }

  /** What the "My Tickets" section shows. */
  datatype TicketsSection = TicketsSection(loadingLine: bool, emptyLine: bool, rows: seq<TicketButton>)

  /** `userTickets?.length` is truthy. */
  predicate HasTickets(tickets: Option<seq<Ticket>>) {
    tickets.Some? && |tickets.value| > 0
  }

  function TicketsView(tickets: Option<seq<Ticket>>, loading: bool, now: int): (v: TicketsSection)
    ensures v.loadingLine <==> loading
    ensures v.emptyLine <==> (tickets.None? || tickets.value == []) && !loading
    ensures v.emptyLine ==> !v.loadingLine && v.rows == []
    ensures tickets.None? ==> v.rows == []
    ensures tickets.Some? ==> |v.rows| == |tickets.value|
    ensures tickets.Some? ==> forall i :: 0 <= i < |v.rows| ==> v.rows[i] == TicketRow(tickets.value[i], now)
  {
    var rows := if tickets.None? then [] else seq(|tickets.value|, i requires 0 <= i < |tickets.value| => TicketRow(tickets.value[i], now));
    TicketsSection(loading, !HasTickets(tickets) && !loading, rows)
  }
}

=== FILE: time.dfy ===
/**
 * Round end times are UNIX seconds; the wall clock is in milliseconds. Both
 * the countdown and the ticket rows measure the time left the same way.
 */
module Time {
  const MsPerSecond: nat := 1000

  /** Milliseconds from `now` until the second `endSeconds`; zero or less once it has passed. */
  function MsUntil(endSeconds: int, now: int): (d: int)
    ensures d <= 0 <==> endSeconds * 1000 <= now
    ensures d + now == endSeconds * 1000
  {
    endSeconds * MsPerSecond - now
  }
}

=== FILE: ui_button.dfy ===
/**
 * The shared action button (`UiButton.tsx`): blocked unless active, not
 * disabled and not loading; "Loading..." while loading; styled by `active`
 * alone.
 */
module UiButton {
  import opened Js

  const BaseClasses: string :=
    "text-center text-xs font-semibold uppercase tracking-wider w-full px-4 py-2 rounded-lg transition-all duration-300"
  const ActiveClasses: string := "bg-yellow-400 border-yellow-500 text-black"
  const InactiveClasses: string := "border-yellow-400/10 opacity-50 cursor-not-allowed"

  /** The optional props are `undefined` when the caller leaves them out. */
  datatype Props = Props(text: string, disabled: Option<bool>, loading: Option<bool>, active: Option<bool>)

  datatype Rendered = Rendered(disabled: bool, caption: string, classes: string)

  function Render(p: Props): (r: Rendered)
    ensures r.disabled <==> !TruthyBool(p.active) || TruthyBool(p.disabled) || TruthyBool(p.loading)
    ensures TruthyBool(p.loading) ==> r.caption == "Loading..."
    ensures !TruthyBool(p.loading) ==> r.caption == p.text
    ensures |r.classes| > |BaseClasses| + 1
    ensures r.classes[..|BaseClasses|] == BaseClasses
    ensures TruthyBool(p.active) ==> r.classes[|BaseClasses| + 1..] == ActiveClasses
    ensures !TruthyBool(p.active) ==> r.classes[|BaseClasses| + 1..] == InactiveClasses
  {
    var classes := BaseClasses + " " + (if TruthyBool(p.active) then ActiveClasses else InactiveClasses);
    Rendered(
      !TruthyBool(p.active) || TruthyBool(p.disabled) || TruthyBool(p.loading),
      if TruthyBool(p.loading) then "Loading..." else p.text,
      classes)
  }

  /** A button that is not active is disabled whatever its other props say. */
  lemma InactiveIsDisabled(p: Props)
    requires !TruthyBool(p.active)
    ensures Render(p).disabled
  {
  }

  /** A clickable button is active, not disabled and not loading, and shows its own text. */
  lemma ClickableShowsText(p: Props)
    requires !Render(p).disabled
    ensures TruthyBool(p.active) && !TruthyBool(p.disabled) && !TruthyBool(p.loading)
    ensures Render(p).caption == p.text
  {
  }

  /** The class string depends on `active` only. */
  lemma ClassesFollowActive(p: Props, q: Props)
    requires TruthyBool(p.active) == TruthyBool(q.active)
    ensures Render(p).classes == Render(q).classes
  {
  }

  /** Active and inactive buttons are styled differently. */
  lemma ClassesDistinguishActive(p: Props, q: Props)
    requires TruthyBool(p.active) && !TruthyBool(q.active)
    ensures Render(p).classes != Render(q).classes
  {
    assert |ActiveClasses| != |InactiveClasses|;
  }
}

=== FILE: winner_section.dfy ===
/**
 * The round-result card (`WinnerSection.tsx`): the round title and its
 * " Winner!" suffix, which of five result views shows, and the gating and
 * labels of the claim-prize and claim-principal buttons.
 */
module WinnerSection {
  import opened Js

  datatype Props = Props(
    currentRoundId: Option<nat>,
    roundActive: Option<bool>,
    isWinnerLoading: bool,
    winnerAddress: Option<string>,
    address: Option<string>,
    roundEndTimestamp: Option<nat>,
    isPrizeAmountLoading: bool,
    isExpectedRefundLoading: bool,
    isRoundIdLoading: bool,
    expectedRefundAmount: Option<nat>,
    isClaimPrizePending: bool,
    isClaimPrincipalPending: bool,
    prizeClaimed: Option<bool>)

  // ---------------------------------------------------------------------
  // Header
  // ---------------------------------------------------------------------

  /** `#<id>` for a truthy round id, `#...` for an undefined or zero one. */
  function RoundTitle(p: Props): (r: string)
    ensures |r| >= 2 && r[0] == '#'
    ensures r == "#..." <==> !TruthyInt(p.currentRoundId)
    ensures TruthyInt(p.currentRoundId) ==>
      AllDigits(r[1..]) && DigitsValue(r[1..]) == p.currentRoundId.value && r[1] != '0'
  {
    if TruthyInt(p.currentRoundId) then
      var r := "#" + NatToString(p.currentRoundId.value);
      assert r[1..] == NatToString(p.currentRoundId.value);
      assert r != "#..." by { assert IsDigit(r[1]); }
      r
    else "#..."
  }

  /** The connected account is the round's winner. */
  predicate IsWinner(p: Props) {
    TruthyStr(p.winnerAddress) && p.winnerAddress == p.address
  }

  /** The " Winner!" suffix after the round title. */
  predicate WinnerSuffix(p: Props)
    ensures WinnerSuffix(p) ==> TruthyStr(p.address) && p.address == p.winnerAddress
    ensures WinnerSuffix(p) ==> !TruthyBool(p.roundActive) && !p.isWinnerLoading
    ensures p.address.None? ==> !WinnerSuffix(p)
    ensures (&& p.roundActive != Some(true) && !p.isWinnerLoading
             && p.address.Some? && p.address.value != "" && p.winnerAddress == p.address) ==> WinnerSuffix(p)
  {
    !TruthyBool(p.roundActive) && !p.isWinnerLoading && IsWinner(p)
  }

  // ---------------------------------------------------------------------
  // Buttons
  // ---------------------------------------------------------------------

  datatype PrizeButton = PrizeButton(disabled: bool, text: string)

  /**
   * The claim-prize button: disabled while the claim is pending or once the
   * prize has been claimed; its label prefers the pending state.
   */
  function ClaimPrizeButton(p: Props): (b: PrizeButton)
    ensures b.disabled <==> p.isClaimPrizePending || TruthyBool(p.prizeClaimed)
    ensures p.isClaimPrizePending ==> b.text == "Claiming Prize..."
    ensures !p.isClaimPrizePending && TruthyBool(p.prizeClaimed) ==> b.text == "Prize Already Claimed"
    ensures b.text == "Claim Prize" <==> !b.disabled
  {
    PrizeButton(
      p.isClaimPrizePending || TruthyBool(p.prizeClaimed),
      if p.isClaimPrizePending then "Claiming Prize..."
      else if TruthyBool(p.prizeClaimed) then "Prize Already Claimed"
      else "Claim Prize")
  }

  datatype PrincipalButton = PrincipalButton(disabled: bool, dimmed: bool, text: string)

  /** The claim-principal button: blocked, dimmed and relabelled while the claim is pending. */
  function ClaimPrincipalButton(p: Props): (b: PrincipalButton)
    ensures b.disabled <==> p.isClaimPrincipalPending
    ensures b.dimmed <==> b.disabled
    ensures b.text == "Claim Principal" <==> !b.disabled
    ensures p.isClaimPrincipalPending ==> b.text == "Claiming Principal..."
  {
    PrincipalButton(
      p.isClaimPrincipalPending,
      p.isClaimPrincipalPending,
      if p.isClaimPrincipalPending then "Claiming Principal..." else "Claim Principal")
  }

  // ---------------------------------------------------------------------
  // Result views
  // ---------------------------------------------------------------------

  /**
   * The body of the card. The active view says whether the end time is
   * known; the claim view shows the winning address and the prize button;
   * the loser view shows the principal button when a refund is expected.
   */
  datatype ResultView =
    | ActiveRound(endKnown: bool)
    | LoadingResults
    | ClaimView(winningAddress: string, prize: PrizeButton)
    | LoserView(refund: Option<PrincipalButton>)
    | NotAvailable

  /** Any of the four reads the result views wait for is in flight. */
  predicate AnyLoading(p: Props) {
    p.isWinnerLoading || p.isPrizeAmountLoading || p.isExpectedRefundLoading || p.isRoundIdLoading
  }

  /** `expectedRefundAmount && expectedRefundAmount > 0`. */
  predicate RefundExpected(p: Props) {
    TruthyInt(p.expectedRefundAmount) && p.expectedRefundAmount.value > 0
  }

  function View(p: Props): (v: ResultView)
    ensures v.ActiveRound? <==> TruthyBool(p.roundActive)
    ensures v.ActiveRound? ==> (v.endKnown <==> TruthyInt(p.roundEndTimestamp))
    ensures v.LoadingResults? <==> !TruthyBool(p.roundActive) && AnyLoading(p)
    ensures v.ClaimView? <==> !TruthyBool(p.roundActive) && !AnyLoading(p) && IsWinner(p)
    ensures v.LoserView? <==>
      !TruthyBool(p.roundActive) && !AnyLoading(p) && TruthyStr(p.winnerAddress) && p.winnerAddress != p.address
    ensures v.NotAvailable? <==> !TruthyBool(p.roundActive) && !AnyLoading(p) && !TruthyStr(p.winnerAddress)
    ensures v.ClaimView? ==> v.prize == ClaimPrizeButton(p)
    ensures v.LoserView? ==> (v.refund.Some? <==> RefundExpected(p))
    ensures v.LoserView? && v.refund.Some? ==> v.refund.value == ClaimPrincipalButton(p)
  {
    if TruthyBool(p.roundActive) then ActiveRound(TruthyInt(p.roundEndTimestamp))
    else if AnyLoading(p) then LoadingResults
    else if TruthyStr(p.winnerAddress) then
      if p.winnerAddress == p.address then
        ClaimView(if TruthyStr(p.address) then p.address.value else "N/A", ClaimPrizeButton(p))
      else
        LoserView(if RefundExpected(p) then Some(ClaimPrincipalButton(p)) else None)
    else NotAvailable
  }

  /** The text lines each view shows besides its buttons. */
  function ViewLines(v: ResultView): (r: seq<string>)
    ensures "No principal to claim." in r <==> v.LoserView? && v.refund.None?
    ensures "Expected Refund:" in r <==> v.LoserView? && v.refund.Some?
    ensures "Loading round results..." in r <==> v.LoadingResults?
    ensures "Better luck next time!" in r <==> v.LoserView?
  {
    match v
    case ActiveRound(_) => ["Round is Active", "Round Ends:", "Round has not yet ended"]
    case LoadingResults => ["Loading round results..."]
    case ClaimView(_, _) => ["Winning Address:"]
    case LoserView(refund) =>
      ["Better luck next time!"] + if refund.Some? then ["Expected Refund:"] else ["No principal to claim."]
    case NotAvailable => ["Round results not yet available."]
  }

  /** In the loser view the refund block shows exactly when a positive refund is expected. */
  lemma LoserRefundLine(p: Props)
    requires View(p).LoserView?
    ensures "Expected Refund:" in ViewLines(View(p)) <==> RefundExpected(p)
    ensures "No principal to claim." in ViewLines(View(p)) <==> !RefundExpected(p)
  {
  }

  /**
   * The claim view always comes with the " Winner!" suffix, and the suffix
   * comes with the claim view unless a result read is still loading.
   */
  lemma SuffixMatchesClaimView(p: Props)
    ensures View(p).ClaimView? ==> WinnerSuffix(p)
    ensures WinnerSuffix(p) && !AnyLoading(p) ==> View(p).ClaimView?
  {
  }

  /**
   * The suffix waits only for the winner read: while the prize, refund or
   * round-id read is still loading, the header already says " Winner!"
   * above "Loading round results...".
   */
  lemma SuffixDuringLoading()
    ensures var p := Props(Some(1), Some(false), false, Some("0xabc"), Some("0xabc"), None,
                           true, false, false, None, false, false, None);
      WinnerSuffix(p) && View(p).LoadingResults?
  {
  }

  /**
   * The claim view's `address ? address : "N/A"` always takes the first
   * branch: the winner matched a truthy address to get there.
   */
  lemma ClaimViewShowsAddress(p: Props)
    requires View(p).ClaimView?
    ensures TruthyStr(p.address)
    ensures View(p).winningAddress == p.address.value
  {
  }

  /** A claimed prize can never be claimed again from this card. */
  lemma ClaimedPrizeBlocked(p: Props)
    requires TruthyBool(p.prizeClaimed)
    ensures ClaimPrizeButton(p).disabled
    ensures ClaimPrizeButton(p).text != "Claim Prize"
  {
  }
}
